=== FILE: README.md ===
# kite kubectl terminal — a Dafny model

This project models the kubectl terminal of kite, a Kubernetes dashboard. An admin user opens a
websocket. The server then does the following:

1. It makes sure a shared cluster-admin ServiceAccount and ClusterRoleBinding exist.
2. It creates a per-session agent pod, named and labelled with a session id built from the user's key.
3. It polls the pod until it is ready, streaming progress messages.
4. It attaches the terminal.
5. It deletes the session's pods by label on every path after the pod-create attempt.

The project also models the pod-status helpers the wait uses, the two agent-name generators, and
the front end's open/minimize state of the terminal panel.

Modules:

- `Opt` (opt.dfy): the `Option` type, standing for Go's nil pointers.
- `Pods` (pods.dfy): `IsPodReady`, `IsPodErrorOrSuccess` and `GetPodErrorMessage` over a pod-status record.
- `AgentNames` (agent_names.dfy): `GenerateKubectlAgentName` and `GenerateNodeAgentName`. The model also covers the Go `strings.Map`, `Trim` and `TrimRight` steps they use, and the DNS-1123 label and subdomain grammars of RFC 1123 section 2.1 as Kubernetes applies them.
- `Channel` (channel.dfy): the `(type, data)` messages sent over the websocket.
- `ClusterStore` (cluster_store.dfy): the Kubernetes API as an object store. Create reports AlreadyExists, DeleteAllOf works by label selector, and the calls a run makes form a trace of `Action`s.
- `Readiness` (readiness.dfy): `waitForPodReady`. The Go `select` over cancellation, the 60 s timer and the 2 s ticker becomes a finite list of events `Cancel | Timeout | Tick(getResult)`. A reference function `Reference` says, in closed form, what a run over that list sends and calls.
- `KubectlTerminal` (kubectl_terminal.dfy): the handler `HandleKubectlTerminalWebSocket`, `ensureAdminServiceAccount`, the agent pod of `createKubectlAgent`, and the selector of `cleanupPod`. The environment is an input: admission, each Create result, the wait's events, and the attach and cleanup errors. A run returns the messages, the API calls, the log lines and the outcome. `Respond` is the handler body for a given agent name and a given wait run. `Handle` instantiates it with the generated name and the run of `waitForPodReady`, so the call accounting is proved once for any wait run that issues only Gets.
- `TerminalPanel` (terminal_panel.dfy): `openTerminal`, `closeTerminal`, `minimizeTerminal` and `toggleTerminal` of the React `TerminalProvider`.

Behaviours of the code the model keeps:

- A cancelled wait returns nil, so the handler still attaches before it cleans up.
- A timeout sends `info ""`, then the pod's diagnostic as an `error`, then a second `error` from the handler.
- A nil pod's diagnostic is `"Pod is nil"`.
- Sanitization does not collapse repeated hyphens.
- Denied and bootstrap-failure sessions issue no cleanup call at all.
- A pod-create that answers AlreadyExists counts as a failure.

## Model

| member | source | states |
|---|---|---|
| Pods.HasReadyCondition | pkg/utils/pods.go:33-37 | the condition scan finds a match exactly when some condition has type `Ready` and status `True` |
| Pods.IsPodReady | pkg/utils/pods.go:26-39 | ready iff the pod is non-nil, its phase is Running, and some condition is Ready/True |
| Pods.IsPodErrorOrSuccess | pkg/utils/pods.go:41-49 | true iff the pod is non-nil and its phase is Failed or Succeeded |
| Pods.FirstStateMessage | pkg/utils/pods.go:15-23 | `""` when no container status has a waiting or terminated state; otherwise the message of the first status that has one |
| Pods.GetPodErrorMessage | pkg/utils/pods.go:11-24 | `"Pod is nil"` for nil; otherwise the first container status with a state decides the message, and `""` when none has one |
| Pods.ReadyExcludesErrorOrSuccess | pkg/utils/pods.go:26-49 | a pod is never both ready and failed/succeeded |
| Pods.ReadinessIgnoresConditionOrder | pkg/utils/pods.go:33-37 | two pods with the same phase and the same multiset of conditions have the same readiness |
| Pods.WaitingPreferredOverTerminated | pkg/utils/pods.go:16-21 | whenever the first container status has a waiting state, its message is returned, whatever the terminated state |
| AgentNames.FoldRune | pkg/utils/pods.go:63-71 | every rune is mapped into `[a-z0-9-]` |
| AgentNames.FoldRuneCases | pkg/utils/pods.go:64-70 | label runes are kept, `A`–`Z` are lowercased, and every other rune (dots, `@`, non-ASCII included) becomes `-`; the result is `-` exactly when the input is `-` or not an ASCII letter or digit |
| AgentNames.FoldRunes | pkg/utils/pods.go:63-71 | the mapped string has the same length, only label runes, and is the rune-wise fold |
| AgentNames.LeadingIn | pkg/utils/pods.go:72 | the length of the longest prefix drawn from the cut set |
| AgentNames.TrailingFrom | pkg/utils/pods.go:80 | the end of the string once the longest suffix drawn from the cut set is removed |
| AgentNames.TrimKeepsInnerStretch | pkg/utils/pods.go:72 | `strings.Trim` yields `""` on a string made only of cut runes, and otherwise the stretch from the first to the last rune outside the set |
| AgentNames.Sanitize | pkg/utils/pods.go:63-75 | the sanitized key is non-empty, label runes only, and alphanumeric at both ends |
| AgentNames.SanitizeIsTrimmedFold | pkg/utils/pods.go:63-75 | `"user"` when every rune folds to `-`; otherwise exactly the folded runes from the first to the last non-hyphen |
| AgentNames.KubectlMiddle | pkg/utils/pods.go:77-81 | the middle fits the 63-rune budget, is a prefix of the sanitized key, is the whole key when it fits, and is non-empty and alphanumeric at both ends whenever the prefix has at most 55 runes; after a cut, exactly the trailing hyphens of the key cut to the budget are removed |
| AgentNames.GenerateKubectlAgentName | pkg/utils/pods.go:62-83 | the name has at most 63 runes, its length is that of `prefix + "-" + middle + "-" + suffix`, and it starts with `prefix-` and ends with `-suffix` |
| AgentNames.KubectlAgentNameMiddle | pkg/utils/pods.go:82 | the runes between the two separators of the name are exactly the middle built from the user key |
| AgentNames.KubectlAgentNameIsDnsLabel | pkg/utils/pods.go:62-83 | for a label-shaped prefix and an alphanumeric suffix, the name is a DNS-1123 label |
| AgentNames.KubectlAgentNameDiffersOnlyInSuffix | pkg/utils/pods.go:82 | two names for the same key agree on everything before the suffix, and are equal iff the suffixes are |
| AgentNames.SanitizeFoldsPunctuation | pkg/utils/pods.go:63-75 | `"Alice.Admin@example"` sanitizes to `"alice-admin-example"` |
| AgentNames.SanitizeKeepsRepeatedHyphens | pkg/utils/pods.go:63-72 | `"a..b"` sanitizes to `"a--b"`: hyphens are not collapsed |
| AgentNames.SanitizeEmptyBecomesPlaceholder | pkg/utils/pods.go:72-75 | `""` and `"@."` both sanitize to `"user"` |
| AgentNames.NodePart | pkg/utils/pods.go:52-58 | the node part fits the budget, is a prefix of the node name, is the whole name when it fits; after a cut, what is removed from the name cut to the budget is exactly its trailing run of dots and the run of hyphens before it |
| AgentNames.GenerateNodeAgentName | pkg/utils/pods.go:51-60 | the name has at most 63 runes, starts with `prefix-`, ends with `-suffix`, and the runes between the separators are exactly the node part built from the node name |
| AgentNames.NodePartOfSubdomain | pkg/utils/pods.go:53-58 | cutting a valid subdomain node name leaves subdomain runes, dots between alphanumerics, and alphanumeric ends |
| AgentNames.NodeAgentNameIsDnsSubdomain | pkg/utils/pods.go:51-60 | a node name that is a DNS-1123 subdomain gives a node agent name that is a DNS-1123 subdomain |
| AgentNames.NodePartCanEndWithDot | pkg/utils/pods.go:56-57 | dots are trimmed before hyphens, so a cut at `.-` leaves a trailing dot |
| ClusterStore.Create | pkg/handlers/kubectl_terminal_handler.go:106-108 | Create adds the object iff no object has its key and no request error occurred; it reports AlreadyExists iff no request error occurred and the key is taken; a request error is reported as Rejected with its own reason, and the store changes only on Created |
| Readiness.FirstEnd | pkg/handlers/kubectl_terminal_handler.go:184-207 | the index of the first cancel, timeout or ready fetch, or the list length when none occurs |
| Readiness.PollLoop | pkg/handlers/kubectl_terminal_handler.go:182-207 | the loop sends and calls exactly what `Reference` states: one Get per tick and one `.` per successful Get up to the first ending event, then that event's closing messages, with the last Get's pod in the timeout diagnostic |
| Readiness.WaitForPodReady | pkg/handlers/kubectl_terminal_handler.go:176-208 | the waiting notice, followed by the reference run from a nil pod |
| Readiness.LastObservedAfterTick | pkg/handlers/kubectl_terminal_handler.go:193-199 | a tick sets the remembered pod even when the Get failed |
| Readiness.EventsAfterEndIgnored | pkg/handlers/kubectl_terminal_handler.go:186-204 | events after the first ending event change nothing |
| Readiness.CancelSendsNothing | pkg/handlers/kubectl_terminal_handler.go:186-187 | a cancel ends the wait with no error and no message beyond those sent before it |
| Readiness.WaitMessageCounts | pkg/handlers/kubectl_terminal_handler.go:180-205 | the stdout messages are one per successful poll, plus one for the ready poll; there is one error iff the wait timed out, and it is last; a ready wait ends with `kubectl agent ready!` |
| KubectlTerminal.Handle | pkg/handlers/kubectl_terminal_handler.go:37-90 | the handler; its properties are stated by `CleanupExactlyOnce`, `NoPodWithoutSetup`, `OutcomeByInputs`, `EarlyFailureSendsOneError`, `WaitMessages`, `CancelStillAttaches`, `CleanupErrorOnlyLogged`, `AttachErrorOnlyLogged` and `HandleLogs` |
| KubectlTerminal.AgentPod | pkg/handlers/kubectl_terminal_handler.go:135-148 | the agent pod, named by and labelled with the instance id; its properties are stated by `CleanupIsSessionScoped`, `CleanupOnStore` and `InstanceIdIsPodName` |
| KubectlTerminal.CleanupCall | pkg/handlers/kubectl_terminal_handler.go:211-218 | the cleanup DeleteAllOf; what it selects is stated by `CleanupSelects` and `CleanupIsSessionScoped`, its effect on a cluster by `CleanupOnStore` |
| KubectlTerminal.EnsureAdminServiceAccount | pkg/handlers/kubectl_terminal_handler.go:93-133 | no error iff neither Create was rejected (AlreadyExists is success); the binding is not attempted after a rejected ServiceAccount; each error carries its own prefix and reason |
| KubectlTerminal.EnsureOnStore | pkg/handlers/kubectl_terminal_handler.go:93-133 | against a cluster, the bootstrap succeeds iff neither request fails, only ever adds the two shared objects, and leaves both present on success |
| KubectlTerminal.EnsureIdempotent | pkg/handlers/kubectl_terminal_handler.go:106-130 | a second bootstrap after a successful one succeeds and leaves the cluster unchanged |
| KubectlTerminal.CleanupExactlyOnce | pkg/handlers/kubectl_terminal_handler.go:62-88 | once the handler returns, the number of DeleteAllOf calls equals the number of pod creates, at most one; the delete is the last call and the attach, on the streaming path only, comes right before it |
| KubectlTerminal.NoPodWithoutSetup | pkg/handlers/kubectl_terminal_handler.go:47-60 | a denied or failed-bootstrap session creates no pod, deletes nothing and does not attach |
| KubectlTerminal.OutcomeByInputs | pkg/handlers/kubectl_terminal_handler.go:47-88 | each outcome happens exactly under its conditions, checked in the handler's order: admission, bootstrap, pod create, then how the wait ends |
| KubectlTerminal.EarlyFailureSendsOneError | pkg/handlers/kubectl_terminal_handler.go:47-70 | a session sends exactly one message, an error, iff it is denied or fails in bootstrap or pod create; the denial sends the admin-only text and makes no call |
| KubectlTerminal.WaitMessages | pkg/handlers/kubectl_terminal_handler.go:79-82 | after a successful create, the first message is the waiting notice; a timeout sends exactly two errors, `GetPodErrorMessage` of the last pod fetched before the wait ended and then the wait failure; a ready run ends with `kubectl agent ready!` |
| KubectlTerminal.CancelStillAttaches | pkg/handlers/kubectl_terminal_handler.go:79-88 | a cancel before readiness ends in attach then cleanup, with the same messages as a run stopped just before the cancel |
| KubectlTerminal.CleanupErrorOnlyLogged | pkg/handlers/kubectl_terminal_handler.go:72-77 | a cleanup error changes neither the messages, nor the calls, nor the outcome |
| KubectlTerminal.AttachErrorOnlyLogged | pkg/handlers/kubectl_terminal_handler.go:85-88 | a session error changes neither the messages, nor the calls, nor the outcome |
| KubectlTerminal.HandleLogs | pkg/handlers/kubectl_terminal_handler.go:64-88 | a failed create logs only its own error, and the cleanup error is dropped; a timeout logs the wait error, then the cleanup notice and any cleanup error; a streamed session logs the bridge's error first, if any, then the cleanup lines; a logged cleanup error is always the last line |
| KubectlTerminal.CleanupSelects | pkg/handlers/kubectl_terminal_handler.go:211-218 | the cleanup selects exactly the pods in the agent namespace whose session label is the instance id |
| KubectlTerminal.CleanupIsSessionScoped | pkg/handlers/kubectl_terminal_handler.go:136-146 | the pod is named by and labelled with the instance id, so the cleanup selects it but never the ServiceAccount, the binding or another session's pod |
| KubectlTerminal.CleanupOnStore | pkg/handlers/kubectl_terminal_handler.go:211-218 | against a cluster, the cleanup removes this session's pod and keeps other sessions' pods and the shared objects |
| KubectlTerminal.InstanceIdIsPodName | pkg/handlers/kubectl_terminal_handler.go:62-137 | the instance id used as the pod name is a DNS-1123 label |
| TerminalPanel.Open | ui/src/contexts/terminal-context.tsx:21-24 | after opening, the panel is shown and the session is alive, from any state |
| TerminalPanel.Close | ui/src/contexts/terminal-context.tsx:27-30 | after closing, the session is gone and the panel is not minimized |
| TerminalPanel.Minimize | ui/src/contexts/terminal-context.tsx:33-35 | after minimizing, the panel is hidden and minimized, and the session is alive iff it was before |
| TerminalPanel.Toggle | ui/src/contexts/terminal-context.tsx:38-46 | toggling always leaves the session alive and flips whether the panel is shown |
| TerminalPanel.CloseIdempotent | ui/src/contexts/terminal-context.tsx:27-30 | closing twice is closing once |
| TerminalPanel.ToggleTwiceWhenOpen | ui/src/contexts/terminal-context.tsx:38-46 | toggling an open panel twice restores it |
| TerminalPanel.ToggleOpensClosed | ui/src/contexts/terminal-context.tsx:39-40 | toggling a closed panel, even a minimized one, opens it |
| TerminalPanel.ReplayAppend | ui/src/contexts/terminal-context.tsx:21-46 | replaying a sequence and then one more action is the same as stepping the replayed state |
| TerminalPanel.SessionAliveAfterReplay | ui/src/contexts/terminal-context.tsx:21-46 | after any sequence of actions, the session is alive iff the last open, toggle or close was not a close (or, if there was none, iff it was alive at the start) |
| TerminalPanel.AliveFromInitial | ui/src/contexts/terminal-context.tsx:17-46 | from the provider's initial closed state, the session is alive iff some open or toggle happened with no close after it |

## Left out

- The websocket and gin plumbing (`websocket.Handler`, `ServeHTTP`, `conn.Close`) and the JSON send helpers. Messages are abstract `(type, data)` pairs, and send failures are not modelled.
- `kube.NewTerminalSession` and `session.Start`: the duplex byte bridge is external to these files. The model records only the attach call and takes its error as an input.
- Kubernetes client semantics (scheduling, background propagation, Get errors) are inputs: a Create result per call, a Get result per tick, and a DeleteAllOf error. `ClusterStore` gives create and delete-by-label a concrete meaning only for the bootstrap and cleanup lemmas.
- Concurrent bootstraps from several sessions: safety rests on the API server's create atomicity, which a sequential model cannot show.
- Wall-clock time: the 60 s timeout and the 2 s ticker become `Timeout` and `Tick` events. The interleaving `select` picks becomes the order of the event list.
- The cancellable session context and `context.TODO` in the cleanup: cancellation is the `Cancel` event, and the cleanup runs regardless of it.
- `RandomString` and the `common.*` constants (agent namespace, pod-name prefixes) are not part of this model. They are parameters: a five-rune suffix and the `Config` values.
- The pod spec fields of `createKubectlAgent` other than its name, namespace and labels (image, service account, TTY, grace period) are not modelled.
- Log output is recorded as strings in the handler's `logs`. The `klog` and `log` distinction is not modelled.
- AgentNames.GenerateKubectlAgentName: lengths are counted in runes, while Go's `len` counts bytes. The two agree on everything measured, because the sanitized middle is ASCII; only a non-ASCII prefix would differ.
- AgentNames.GenerateNodeAgentName: the cut slices runes where Go slices bytes, so a non-ASCII node name, which Kubernetes does not allow, is not modelled byte for byte.
- AgentNames.NodePartOfSubdomain: the DNS-subdomain property is proved only for node names that are themselves valid subdomains, which is what Kubernetes node names are. `NodePartCanEndWithDot` shows the cut can leave a trailing dot otherwise.
- `ui/src/components/floating-terminal.tsx` (rendering, drag clamping in floating point) and the React context plumbing (`createContext`, the `useTerminal` throw).
- `GetImageRegistryAndRepo`: a helper of the same package whose source is not part of this model.

=== FILE: agent_names.dfy ===
/**
  Agent pod names (pkg/utils/pods.go): GenerateKubectlAgentName turns a user key into
  `<prefix>-<middle>-<suffix>` and GenerateNodeAgentName does the same for a node name.

  Strings are sequences of runes. The prefix (a constant of the program) and the
  five-character random suffix are parameters. Byte length and rune count agree on
  every string measured here: the sanitized middle is ASCII by construction, and
  prefixes and node names are ASCII Kubernetes names.
*/
module AgentNames {

  /** Longest name a DNS-1123 label may have (RFC 1123 section 2.1, as Kubernetes applies it). */
  const MaxNameLength: nat := 63
  /** Length of the random suffix. */
  const SuffixLength: nat := 5
  /** The two `-` separators plus the suffix: the 7 of the length budget. */
  const Overhead: nat := SuffixLength + 2
  /** Longest prefix for which the length budget can be computed at all. */
  const MaxPrefixLength: nat := MaxNameLength - Overhead
  /** Replacement middle for a user key that sanitizes to nothing. */
  const Placeholder: string := "user"
  const HyphenAndDot: set<char> := {'-', '.'}

  predicate IsLowerAlnum(c: char)
  {
    ('a' <= c <= 'z') || ('0' <= c <= '9')
  }

  predicate IsLabelChar(c: char)
  {
    IsLowerAlnum(c) || c == '-'
  }

  predicate AllLabelChars(s: string)
  {
    forall i :: 0 <= i < |s| ==> IsLabelChar(s[i])
  }

  predicate AllLowerAlnum(s: string)
  {
    forall i :: 0 <= i < |s| ==> IsLowerAlnum(s[i])
  }

  /** A DNS-1123 label: 1 to 63 of `[a-z0-9-]`, starting and ending alphanumeric. */
  predicate IsDnsLabel(s: string)
  {
    && 1 <= |s| <= MaxNameLength
    && AllLabelChars(s)
    && IsLowerAlnum(s[0])
    && IsLowerAlnum(s[|s| - 1])
  }

  /** Every dot sits strictly inside `s`, between two alphanumerics. */
  predicate DotsBetweenAlnums(s: string)
  {
    forall i :: 0 <= i < |s| && s[i] == '.' ==>
      0 < i < |s| - 1 && IsLowerAlnum(s[i - 1]) && IsLowerAlnum(s[i + 1])
  }

  predicate AllSubdomainChars(s: string)
  {
    forall i :: 0 <= i < |s| ==> IsLabelChar(s[i]) || s[i] == '.'
  }

  /**
    A DNS-1123 subdomain as Kubernetes validates it: at most 253 characters, dot-separated
    labels, each label alphanumeric at both ends. Equivalently: subdomain characters only,
    alphanumeric at both ends, and every dot between two alphanumerics.
  */
  predicate IsDnsSubdomain(s: string)
  {
    && 1 <= |s| <= 253
    && AllSubdomainChars(s)
    && IsLowerAlnum(s[0])
    && IsLowerAlnum(s[|s| - 1])
    && DotsBetweenAlnums(s)
  }

  /** The rune mapping of GenerateKubectlAgentName. */
  function FoldRune(c: char): (d: char)
    ensures IsLabelChar(d)
  {
    if IsLabelChar(c) then c
    else if 'A' <= c <= 'Z' then (c as int + ('a' as int - 'A' as int)) as char
    else '-'
  }

  /**
    Lower-case letters, digits and `-` are kept; an upper-case ASCII letter becomes its
    lower-case letter; every other rune (`.`, `@`, spaces, non-ASCII) becomes one `-`.
  */
  lemma FoldRuneCases(c: char)
    ensures IsLabelChar(c) ==> FoldRune(c) == c
    ensures 'A' <= c <= 'Z' ==> IsLowerAlnum(FoldRune(c)) && FoldRune(c) as int - c as int == 'a' as int - 'A' as int
    ensures !IsLabelChar(c) && !('A' <= c <= 'Z') ==> FoldRune(c) == '-'
    ensures FoldRune(c) == '-' <==> (!IsLabelChar(c) && !('A' <= c <= 'Z')) || c == '-'
  {
  }

  /** strings.Map with FoldRune: one output rune per input rune. */
  function FoldRunes(s: string): (r: string)
    ensures |r| == |s|
    ensures AllLabelChars(r)
    ensures forall i :: 0 <= i < |s| ==> r[i] == FoldRune(s[i])
  {
    seq(|s|, i requires 0 <= i < |s| => FoldRune(s[i]))
  }

  /** Number of leading runes of `s` that are in `cut`. */
  function LeadingIn(s: string, cut: set<char>): (k: nat)
    ensures k <= |s|
    ensures forall i :: 0 <= i < k ==> s[i] in cut
    ensures k < |s| ==> s[k] !in cut
  {
    if |s| == 0 || s[0] !in cut then 0
    else
      var k := LeadingIn(s[1..], cut);
      assert forall i :: 1 <= i <= k ==> s[i] == s[1..][i - 1];
      1 + k
  }

  /** Index at which the trailing run of `cut` runes of `s` starts. */
  function TrailingFrom(s: string, cut: set<char>): (k: nat)
    ensures k <= |s|
    ensures forall i :: k <= i < |s| ==> s[i] in cut
    ensures k > 0 ==> s[k - 1] !in cut
  {
    if |s| == 0 || s[|s| - 1] !in cut then |s|
    else TrailingFrom(s[..|s| - 1], cut)
  }

  /** The trailing-run index is the only index with its two defining properties. */
  lemma {:induction false} TrailingFromUnique(s: string, cut: set<char>, k: nat)
    requires k <= |s|
    requires forall i :: k <= i < |s| ==> s[i] in cut
    requires k > 0 ==> s[k - 1] !in cut
    ensures k == TrailingFrom(s, cut)
  {
  }

  /** strings.TrimLeft: drop the longest prefix made only of `cut` runes. */
  function TrimLeft(s: string, cut: set<char>): string
  {
    s[LeadingIn(s, cut)..]
  }

  /** strings.TrimRight: drop the longest suffix made only of `cut` runes. */
  function TrimRight(s: string, cut: set<char>): string
  {
    s[..TrailingFrom(s, cut)]
  }

  /** All runes of `s` are in `cut`. */
  predicate AllIn(s: string, cut: set<char>)
  {
    forall i :: 0 <= i < |s| ==> s[i] in cut
  }

  /** strings.Trim: TrimLeft, then TrimRight, with the same cut set. */
  function Trim(s: string, cut: set<char>): string
  {
    TrimRight(TrimLeft(s, cut), cut)
  }

  /**
    Trim yields nothing when every rune is in `cut`, and otherwise exactly the stretch from
    the first to the last rune outside `cut`.
  */
  lemma TrimKeepsInnerStretch(s: string, cut: set<char>)
    ensures AllIn(s, cut) ==> Trim(s, cut) == []
    ensures !AllIn(s, cut) ==> LeadingIn(s, cut) < TrailingFrom(s, cut)
                               && Trim(s, cut) == s[LeadingIn(s, cut)..TrailingFrom(s, cut)]
  {
    if AllIn(s, cut) {
      TrimAllIn(s, cut);
    } else {
      TrimNotAllIn(s, cut);
    }
  }

  lemma TrimAllIn(s: string, cut: set<char>)
    requires AllIn(s, cut)
    ensures Trim(s, cut) == []
  {
    var a := LeadingIn(s, cut);
    if a < |s| {
      assert false;
    }
    assert TrimLeft(s, cut) == [];
  }

  lemma TrimNotAllIn(s: string, cut: set<char>)
    requires !AllIn(s, cut)
    ensures LeadingIn(s, cut) < TrailingFrom(s, cut)
    ensures Trim(s, cut) == s[LeadingIn(s, cut)..TrailingFrom(s, cut)]
  {
    var a, b := LeadingIn(s, cut), TrailingFrom(s, cut);
    var i :| 0 <= i < |s| && s[i] !in cut;
    assert a <= i;
    assert i < b;
    TrailingOfSuffix(s, cut, a);
    var t := TrimLeft(s, cut);
    assert t == s[a..];
    var k := TrailingFrom(t, cut);
    assert k == b - a;
    assert Trim(s, cut) == t[..k];
    SliceOfSuffix(s, t, a, b, k);
  }

  lemma SliceOfSuffix<T>(s: seq<T>, t: seq<T>, a: nat, b: nat, k: nat)
    requires a <= b <= |s| && t == s[a..] && k == b - a
    ensures t[..k] == s[a..b]
  {
  }

  /** Dropping a prefix that ends before the last rune outside `cut` shifts the trailing index. */
  lemma TrailingOfSuffix(s: string, cut: set<char>, a: nat)
    requires a < TrailingFrom(s, cut)
    ensures TrailingFrom(s[a..], cut) == TrailingFrom(s, cut) - a
  {
    var b := TrailingFrom(s, cut);
    var t := s[a..];
    assert forall i :: b - a <= i < |t| ==> t[i] == s[a + i];
    assert t[b - a - 1] == s[b - 1];
    TrailingFromUnique(t, cut, b - a);
  }

  /** Every rune of `u` folds to a hyphen (so nothing survives the trim). */
  predicate FoldsToHyphens(u: string)
  {
    forall i :: 0 <= i < |u| ==> FoldRune(u[i]) == '-'
  }

  /**
    The map/trim/placeholder part of GenerateKubectlAgentName: `"user"` when every rune folds
    to a hyphen; otherwise the folded runes from the first to the last rune that does not
    fold to a hyphen.
  */
  function Sanitize(u: string): (r: string)
    ensures |r| > 0 && AllLabelChars(r)
    ensures IsLowerAlnum(r[0]) && IsLowerAlnum(r[|r| - 1])
  {
    var t := Trim(FoldRunes(u), HyphenAndDot);
    TrimmedLabelShape(FoldRunes(u));
    if t == [] then Placeholder else t
  }

  /** Trimming `-.` from label runes leaves nothing, or label runes with alphanumeric ends. */
  lemma TrimmedLabelShape(m: string)
    requires AllLabelChars(m)
    ensures var t := Trim(m, HyphenAndDot);
            t != [] ==> AllLabelChars(t) && IsLowerAlnum(t[0]) && IsLowerAlnum(t[|t| - 1])
  {
    TrimKeepsInnerStretch(m, HyphenAndDot);
    if !AllIn(m, HyphenAndDot) {
      var a, b := LeadingIn(m, HyphenAndDot), TrailingFrom(m, HyphenAndDot);
      InnerSliceShape(m, a, b);
    }
  }

  /** A stretch of label runes whose end runes are neither `-` nor `.`. */
  lemma InnerSliceShape(m: string, a: nat, b: nat)
    requires AllLabelChars(m) && a < b <= |m|
    requires m[a] !in HyphenAndDot && m[b - 1] !in HyphenAndDot
    ensures var t := m[a..b];
            AllLabelChars(t) && IsLowerAlnum(t[0]) && IsLowerAlnum(t[|t| - 1])
  {
    var t := m[a..b];
    assert t[0] == m[a] && t[|t| - 1] == m[b - 1];
    forall i | 0 <= i < |t|
      ensures IsLabelChar(t[i])
    {
      assert t[i] == m[a + i];
    }
  }

  /**
    Sanitize yields `"user"` when every rune folds to a hyphen; otherwise exactly the folded
    runes from the first to the last rune that does not fold to a hyphen.
  */
  lemma SanitizeIsTrimmedFold(u: string)
    ensures FoldsToHyphens(u) ==> Sanitize(u) == Placeholder
    ensures !FoldsToHyphens(u) ==>
              var m := FoldRunes(u);
              LeadingIn(m, {'-'}) < TrailingFrom(m, {'-'})
              && Sanitize(u) == m[LeadingIn(m, {'-'})..TrailingFrom(m, {'-'})]
  {
    var m := FoldRunes(u);
    FoldedTrimSets(u);
    TrimKeepsInnerStretch(m, HyphenAndDot);
  }

  /** On folded runes, trimming `-.` and trimming `-` agree, and "all in `-.`" means "all fold to `-`". */
  lemma FoldedTrimSets(u: string)
    ensures var m := FoldRunes(u);
            && LeadingIn(m, HyphenAndDot) == LeadingIn(m, {'-'})
            && TrailingFrom(m, HyphenAndDot) == TrailingFrom(m, {'-'})
            && (AllIn(m, HyphenAndDot) <==> FoldsToHyphens(u))
  {
    var m := FoldRunes(u);
    assert forall i :: 0 <= i < |m| ==> (m[i] in HyphenAndDot <==> m[i] in {'-'});
    TrailingFromUnique(m, {'-'}, TrailingFrom(m, HyphenAndDot));
  }

  /**
    The middle part of GenerateKubectlAgentName: the sanitized key, cut to the length budget
    left by a prefix of `prefixLen` runes and right-trimmed again when it had to be cut.
    Go panics on a negative slice bound, hence the requires.
  */
  function KubectlMiddle(u: string, prefixLen: nat): (r: string)
    requires prefixLen <= MaxPrefixLength
    ensures prefixLen + |r| + Overhead <= MaxNameLength
    ensures AllLabelChars(r)
    ensures |r| <= |Sanitize(u)| && r == Sanitize(u)[..|r|]
    ensures prefixLen + |Sanitize(u)| + Overhead <= MaxNameLength ==> r == Sanitize(u)
    ensures prefixLen < MaxPrefixLength ==> |r| > 0 && IsLowerAlnum(r[0]) && IsLowerAlnum(r[|r| - 1])
    ensures prefixLen + |Sanitize(u)| + Overhead > MaxNameLength ==>
              && (forall i :: |r| <= i < MaxNameLength - prefixLen - Overhead ==> Sanitize(u)[i] == '-')
              && (|r| > 0 ==> Sanitize(u)[|r| - 1] != '-')
  {
    var s := Sanitize(u);
    if |s| + prefixLen + Overhead > MaxNameLength then
      var maxLength := MaxNameLength - prefixLen - Overhead;
      CutLabel(s, maxLength);
      CutTail(s, maxLength);
      TrimRight(s[..maxLength], HyphenAndDot)
    else
      s
  }

  /** What right-trimming `-.` after a cut removes from a label-shaped string: hyphens only. */
  lemma CutTail(s: string, n: nat)
    requires AllLabelChars(s) && n <= |s|
    ensures var k := TrailingFrom(s[..n], HyphenAndDot);
            && (forall i :: k <= i < n ==> s[i] == '-')
            && (k > 0 ==> s[k - 1] != '-')
  {
    var c := s[..n];
    var k := TrailingFrom(c, HyphenAndDot);
    forall i | k <= i < n
      ensures s[i] == '-'
    {
      assert c[i] == s[i] && c[i] in HyphenAndDot && IsLabelChar(s[i]);
    }
    if k > 0 {
      assert c[k - 1] == s[k - 1];
    }
  }

  /** Cutting a label-shaped string and right-trimming `-.` keeps a label-shaped prefix of it. */
  lemma CutLabel(s: string, n: nat)
    requires AllLabelChars(s) && |s| > 0 && IsLowerAlnum(s[0]) && n <= |s|
    ensures var r := TrimRight(s[..n], HyphenAndDot);
            && |r| <= n && r == s[..|r|] && AllLabelChars(r)
            && (n > 0 ==> |r| > 0 && IsLowerAlnum(r[0]) && IsLowerAlnum(r[|r| - 1]))
  {
    var c := s[..n];
    var k := TrailingFrom(c, HyphenAndDot);
    var r := c[..k];
    assert r == s[..k];
    if n > 0 {
      assert c[0] == s[0];
      assert k > 0;
      InnerSliceShape(s, 0, k);
    } else {
      assert r == [];
    }
  }

  /** GenerateKubectlAgentName: `prefix + "-" + middle + "-" + suffix`, at most 63 runes. */
  function GenerateKubectlAgentName(u: string, prefix: string, suffix: string): (name: string)
    requires |prefix| <= MaxPrefixLength && |suffix| == SuffixLength
    ensures |name| <= MaxNameLength
    ensures |name| == |prefix| + |KubectlMiddle(u, |prefix|)| + Overhead
    ensures name[..|prefix| + 1] == prefix + "-"
    ensures name[|name| - SuffixLength - 1..] == "-" + suffix
  {
    var mid := KubectlMiddle(u, |prefix|);
    assert |prefix| + |mid| + Overhead <= MaxNameLength;
    JoinShape(prefix, mid, suffix);
    prefix + "-" + mid + "-" + suffix
  }

  /** The runes between the two separators of a kubectl agent name are the middle built from the key. */
  lemma KubectlAgentNameMiddle(u: string, prefix: string, suffix: string)
    requires |prefix| <= MaxPrefixLength && |suffix| == SuffixLength
    ensures var name := GenerateKubectlAgentName(u, prefix, suffix);
            name[|prefix| + 1..|name| - SuffixLength - 1] == KubectlMiddle(u, |prefix|)
  {
    JoinShape(prefix, KubectlMiddle(u, |prefix|), suffix);
  }

  /** Where the prefix, the middle, the separators and the suffix sit in a joined name. */
  lemma JoinShape(prefix: string, mid: string, suffix: string)
    ensures var name := prefix + "-" + mid + "-" + suffix;
            && |name| == |prefix| + |mid| + 2 + |suffix|
            && name[..|prefix| + 1] == prefix + "-"
            && name[|name| - |suffix| - 1..] == "-" + suffix
            && name[|prefix| + 1..|name| - |suffix| - 1] == mid
  {
    var name := prefix + "-" + mid + "-" + suffix;
    assert name == (prefix + "-") + mid + ("-" + suffix);
    assert name == (prefix + "-") + (mid + "-" + suffix);
    assert name == (prefix + "-" + mid) + ("-" + suffix);
  }

  /** `prefix-mid-suffix` is a DNS-1123 label when its parts are label runes with alphanumeric outer ends. */
  lemma JoinIsLabel(prefix: string, mid: string, suffix: string)
    requires 1 <= |prefix| && AllLabelChars(prefix) && IsLowerAlnum(prefix[0])
    requires 1 <= |suffix| && AllLowerAlnum(suffix)
    requires AllLabelChars(mid)
    requires |prefix| + |mid| + 2 + |suffix| <= MaxNameLength
    ensures IsDnsLabel(prefix + "-" + mid + "-" + suffix)
  {
    var name := prefix + "-" + mid + "-" + suffix;
    forall i | 0 <= i < |name|
      ensures IsLabelChar(name[i])
    {
      if i < |prefix| {
        assert name[i] == prefix[i];
      } else if i == |prefix| {
      } else if i < |prefix| + 1 + |mid| {
        assert name[i] == mid[i - |prefix| - 1];
      } else if i == |prefix| + 1 + |mid| {
      } else {
        assert name[i] == suffix[i - |prefix| - 2 - |mid|];
      }
    }
    assert name[|name| - 1] == suffix[|suffix| - 1];
  }

  /**
    With a label-shaped prefix and an alphanumeric suffix, the kubectl agent name is a valid
    DNS-1123 label, whatever the user key.
  */
  lemma KubectlAgentNameIsDnsLabel(u: string, prefix: string, suffix: string)
    requires 1 <= |prefix| <= MaxPrefixLength && AllLabelChars(prefix) && IsLowerAlnum(prefix[0])
    requires |suffix| == SuffixLength && AllLowerAlnum(suffix)
    ensures IsDnsLabel(GenerateKubectlAgentName(u, prefix, suffix))
  {
    JoinIsLabel(prefix, KubectlMiddle(u, |prefix|), suffix);
  }

  /** The suffix is the only source of variation, and distinct suffixes give distinct names. */
  lemma KubectlAgentNameDiffersOnlyInSuffix(u: string, prefix: string, s1: string, s2: string)
    requires |prefix| <= MaxPrefixLength && |s1| == SuffixLength && |s2| == SuffixLength
    ensures var n1, n2 := GenerateKubectlAgentName(u, prefix, s1), GenerateKubectlAgentName(u, prefix, s2);
            |n1| == |n2| && n1[..|n1| - SuffixLength] == n2[..|n2| - SuffixLength]
            && (n1 == n2 <==> s1 == s2)
  {
    var n1, n2 := GenerateKubectlAgentName(u, prefix, s1), GenerateKubectlAgentName(u, prefix, s2);
    var head := prefix + "-" + KubectlMiddle(u, |prefix|) + "-";
    assert n1 == head + s1 && n2 == head + s2;
    assert n1[..|n1| - SuffixLength] == head == n2[..|n2| - SuffixLength];
    if n1 == n2 {
      assert s1 == n1[|head|..] == n2[|head|..] == s2;
    }
  }

  /** Dots and `@` become single hyphens; case folds to lower. */
  lemma SanitizeFoldsPunctuation()
    ensures Sanitize("Alice.Admin@example") == "alice-admin-example"
  {
    var u := "Alice.Admin@example";
    var m := FoldRunes(u);
    assert m == "alice-admin-example";
    assert TrimLeft(m, HyphenAndDot) == m;
    assert TrimRight(m, HyphenAndDot) == m;
  }

  /** Repeated hyphens are not collapsed. */
  lemma SanitizeKeepsRepeatedHyphens()
    ensures Sanitize("a..b") == "a--b"
  {
    var m := FoldRunes("a..b");
    assert m == "a--b";
    assert TrimLeft(m, HyphenAndDot) == m;
    assert TrimRight(m, HyphenAndDot) == m;
  }

  /** A key with no usable rune becomes the placeholder. */
  lemma SanitizeEmptyBecomesPlaceholder()
    ensures Sanitize("@.") == Placeholder
    ensures Sanitize("") == Placeholder
  {
    assert FoldRunes("@.") == "--";
  }

  /**
    The node part of GenerateNodeAgentName: the node name unchanged when it fits, otherwise
    cut to the budget and right-trimmed of dots, then of hyphens. Runes are not mapped.
  */
  function NodePart(n: string, prefixLen: nat): (r: string)
    requires prefixLen <= MaxPrefixLength
    ensures prefixLen + |r| + Overhead <= MaxNameLength
    ensures |r| <= |n| && r == n[..|r|]
    ensures |n| + prefixLen + Overhead <= MaxNameLength ==> r == n
    ensures |n| + prefixLen + Overhead > MaxNameLength && |r| > 0 ==> r[|r| - 1] != '-'
    ensures |n| + prefixLen + Overhead > MaxNameLength ==>
              var m := MaxNameLength - prefixLen - Overhead;
              var j := TrailingFrom(n[..m], {'.'});
              && |r| <= j
              && (forall i :: j <= i < m ==> n[i] == '.')
              && (forall i :: |r| <= i < j ==> n[i] == '-')
  {
    if |n| + prefixLen + Overhead > MaxNameLength then
      var maxLength := MaxNameLength - prefixLen - Overhead;
      var c := n[..maxLength];
      var j := TrailingFrom(c, {'.'});
      var t := TrimRight(c[..j], {'-'});
      NodeCutTail(n, maxLength);
      assert forall i :: 0 <= i < |t| ==> t[i] == n[i];
      t
    else
      n
  }

  /** Right-trimming dots, then hyphens, from a cut removes a run of hyphens followed by a run of dots. */
  lemma NodeCutTail(n: string, m: nat)
    requires m <= |n|
    ensures var j := TrailingFrom(n[..m], {'.'});
            var k := TrailingFrom(n[..m][..j], {'-'});
            && (forall i :: j <= i < m ==> n[i] == '.')
            && (forall i :: k <= i < j ==> n[i] == '-')
  {
    var c := n[..m];
    var j := TrailingFrom(c, {'.'});
    var k := TrailingFrom(c[..j], {'-'});
    forall i | j <= i < m
      ensures n[i] == '.'
    {
      assert c[i] == n[i];
    }
    forall i | k <= i < j
      ensures n[i] == '-'
    {
      assert c[..j][i] == n[i];
    }
  }

  /** GenerateNodeAgentName: `prefix + "-" + nodePart + "-" + suffix`, at most 63 runes. */
  function GenerateNodeAgentName(n: string, prefix: string, suffix: string): (name: string)
    requires |prefix| <= MaxPrefixLength && |suffix| == SuffixLength
    ensures |prefix| + Overhead <= |name| <= MaxNameLength
    ensures name[..|prefix| + 1] == prefix + "-"
    ensures name[|name| - SuffixLength - 1..] == "-" + suffix
    ensures name[|prefix| + 1..|name| - SuffixLength - 1] == NodePart(n, |prefix|)
  {
    var part := NodePart(n, |prefix|);
    JoinShape(prefix, part, suffix);
    prefix + "-" + part + "-" + suffix
  }

  /**
    Cutting a valid subdomain and trimming dots, then hyphens, leaves either nothing or a
    string that is alphanumeric at both ends with every dot between alphanumerics.
  */
  lemma NodePartOfSubdomain(n: string, prefixLen: nat)
    requires prefixLen <= MaxPrefixLength && IsDnsSubdomain(n)
    ensures var r := NodePart(n, prefixLen);
            AllSubdomainChars(r) && DotsBetweenAlnums(r)
            && (|r| > 0 ==> IsLowerAlnum(r[0]) && IsLowerAlnum(r[|r| - 1]))
            && (prefixLen < MaxPrefixLength ==> |r| > 0)
  {
    var r := NodePart(n, prefixLen);
    if |n| + prefixLen + Overhead > MaxNameLength {
      var maxLength := MaxNameLength - prefixLen - Overhead;
      if maxLength > 0 {
        NodeCutEnd(n, maxLength);
        SubdomainPrefix(n, |r|);
      } else {
        assert r == [];
      }
    } else {
      SubdomainPrefix(n, |n|);
    }
  }

  /**
    Cutting a subdomain and trimming dots, then hyphens, ends on an alphanumeric: a dot left
    at the end would sit before a trimmed hyphen, which a subdomain never has.
  */
  lemma NodeCutEnd(n: string, maxLength: nat)
    requires IsDnsSubdomain(n) && 0 < maxLength <= |n|
    ensures var r := TrimRight(TrimRight(n[..maxLength], {'.'}), {'-'});
            0 < |r| <= |n| && r == n[..|r|] && IsLowerAlnum(r[|r| - 1])
  {
    var c := n[..maxLength];
    var t1 := TrimRight(c, {'.'});
    var k := TrailingFrom(t1, {'-'});
    var r := t1[..k];
    assert c[0] == n[0];
    assert |t1| > 0 && t1[0] == n[0];
    assert k > 0;
    assert r == n[..k];
    var last := r[k - 1];
    assert last == t1[k - 1] && last == n[k - 1] && last != '-';
    if k == |t1| {
      assert last != '.';
    } else {
      assert t1[k] == '-' == n[k];
      assert last != '.';
    }
  }

  /** A prefix of a subdomain that ends on an alphanumeric keeps the subdomain's shape. */
  lemma SubdomainPrefix(n: string, k: nat)
    requires IsDnsSubdomain(n) && k <= |n|
    requires 0 < k ==> IsLowerAlnum(n[k - 1])
    ensures var r := n[..k];
            AllSubdomainChars(r) && DotsBetweenAlnums(r)
            && (|r| > 0 ==> IsLowerAlnum(r[0]) && IsLowerAlnum(r[|r| - 1]))
  {
    var r := n[..k];
    forall i | 0 <= i < |r|
      ensures IsLabelChar(r[i]) || r[i] == '.'
      ensures r[i] == '.' ==> 0 < i < |r| - 1 && IsLowerAlnum(r[i - 1]) && IsLowerAlnum(r[i + 1])
    {
      assert r[i] == n[i];
      if r[i] == '.' {
        assert i != k - 1;
        assert r[i - 1] == n[i - 1] && r[i + 1] == n[i + 1];
      }
    }
  }

  /**
    For a node name that is a valid DNS-1123 subdomain, a label-shaped prefix and an
    alphanumeric suffix, the node agent name is a valid DNS-1123 subdomain.
  */
  lemma NodeAgentNameIsDnsSubdomain(n: string, prefix: string, suffix: string)
    requires IsDnsSubdomain(n)
    requires 1 <= |prefix| <= MaxPrefixLength && AllLabelChars(prefix) && IsLowerAlnum(prefix[0])
    requires |suffix| == SuffixLength && AllLowerAlnum(suffix)
    ensures IsDnsSubdomain(GenerateNodeAgentName(n, prefix, suffix))
  {
    NodePartOfSubdomain(n, |prefix|);
    JoinIsSubdomain(prefix, NodePart(n, |prefix|), suffix);
  }

  /** `prefix-part-suffix` is a subdomain when the part's dots sit between alphanumerics. */
  lemma JoinIsSubdomain(prefix: string, part: string, suffix: string)
    requires 1 <= |prefix| && AllLabelChars(prefix) && IsLowerAlnum(prefix[0])
    requires |suffix| == SuffixLength && AllLowerAlnum(suffix)
    requires |prefix| + |part| + Overhead <= MaxNameLength
    requires AllSubdomainChars(part) && DotsBetweenAlnums(part)
    ensures IsDnsSubdomain(prefix + "-" + part + "-" + suffix)
  {
    var x, z := prefix + "-", "-" + suffix;
    assert AllLabelChars(x) by {
      assert forall i :: 0 <= i < |prefix| ==> x[i] == prefix[i];
    }
    assert AllLabelChars(z) by {
      assert forall i :: 1 <= i < |z| ==> z[i] == suffix[i - 1];
    }
    var name := prefix + "-" + part + "-" + suffix;
    assert name == x + part + z;
    DottedMiddle(x, part, z);
    assert name[0] == prefix[0];
    assert name[|name| - 1] == suffix[SuffixLength - 1];
  }

  /** Joining dot-free label runes around a string whose dots sit between alphanumerics. */
  lemma DottedMiddle(x: string, y: string, z: string)
    requires AllLabelChars(x) && AllLabelChars(z)
    requires AllSubdomainChars(y) && DotsBetweenAlnums(y)
    ensures AllSubdomainChars(x + y + z) && DotsBetweenAlnums(x + y + z)
  {
    var s := x + y + z;
    forall i | 0 <= i < |s|
      ensures IsLabelChar(s[i]) || s[i] == '.'
      ensures s[i] == '.' ==> 0 < i < |s| - 1 && IsLowerAlnum(s[i - 1]) && IsLowerAlnum(s[i + 1])
    {
      if i < |x| {
        assert s[i] == x[i];
      } else if i < |x| + |y| {
        var j := i - |x|;
        assert s[i] == y[j];
        if y[j] == '.' {
          assert s[i - 1] == y[j - 1] && s[i + 1] == y[j + 1];
        }
      } else {
        assert s[i] == z[i - |x| - |y|];
      }
    }
  }

  /**
    The node part never ends with a hyphen after a cut, but it can end with a dot when the
    node name has `.-` at the cut: dots are trimmed before hyphens. Kubernetes node names
    never contain `.-`, which is why the lemma above needs a valid subdomain.
  */
  lemma NodePartCanEndWithDot()
    ensures var r := NodePart("abcd.-" + seq(60, _ => 'x'), 50); r == "abcd."
  {
    var n := "abcd.-" + seq(60, _ => 'x');
    assert n[..6] == "abcd.-";
    var t0 := n[..6];
    assert t0 == "abcd.-";
    assert TrailingFrom(t0, {'.'}) == 6;
    assert TrailingFrom(t0, {'-'}) == TrailingFrom(t0[..5], {'-'}) == 5;
  }
}

=== FILE: channel.dfy ===
/** The `{ "type", "data" }` envelopes the handler sends to the caller's websocket. */
module Channel {

  datatype MsgKind = Info | Stdout | Error

  datatype Message = Message(kind: MsgKind, data: string)

  function InfoMsg(data: string): Message { Message(Info, data) }
  function ErrorMsg(data: string): Message { Message(Error, data) }
}

=== FILE: cluster_store.dfy ===
/**
  The slice of the Kubernetes API the kubectl terminal uses, as an abstract object store:
  objects keyed by kind, namespace and name, create with AlreadyExists detection, and
  label-scoped DeleteAllOf. The calls the handler makes are recorded as `Action`s.
*/
module ClusterStore {
  import opened Opt

  datatype Kind = ServiceAccountKind | ClusterRoleBindingKind | PodKind

  /** An API object; cluster-scoped objects have the empty namespace. */
  datatype Obj = Obj(kind: Kind, namespace: string, name: string, labels: map<string, string>)

  type Store = set<Obj>

  /** The outcome of a Create call; both failures carry the API error text. */
  datatype CreateResult = Created | AlreadyExists(reason: string) | Rejected(reason: string)

  /** One call into the cluster API, or the hand-off to the terminal attach bridge. */
  datatype Action =
    | CreateCall(obj: Obj)
    | GetCall(kind: Kind, namespace: string, name: string)
    | DeleteAllOfCall(kind: Kind, namespace: string, selector: map<string, string>)
    | AttachCall(namespace: string, pod: string)

  predicate SameKey(a: Obj, b: Obj)
  {
    a.kind == b.kind && a.namespace == b.namespace && a.name == b.name
  }

  predicate KeyTaken(store: Store, o: Obj)
  {
    exists x :: x in store && SameKey(x, o)
  }

  function KindResource(k: Kind): string
  {
    match k
    case ServiceAccountKind => "serviceaccounts"
    case ClusterRoleBindingKind => "clusterrolebindings.rbac.authorization.k8s.io"
    case PodKind => "pods"
  }

  /**
    Create as the API server performs it: a request failure (`fault`) leaves the store alone;
    otherwise an object with the same key makes it AlreadyExists; otherwise the object is added.
  */
  function Create(store: Store, o: Obj, fault: Option<string>): (r: (Store, CreateResult))
    ensures r.1.Created? <==> fault.None? && !KeyTaken(store, o)
    ensures r.1.AlreadyExists? <==> fault.None? && KeyTaken(store, o)
    ensures r.1.Created? ==> r.0 == store + {o}
    ensures !r.1.Created? ==> r.0 == store
    ensures KeyTaken(r.0, o) <==> KeyTaken(store, o) || fault.None?
    ensures fault.Some? ==> r.1 == Rejected(fault.value)
  {
    if fault.Some? then (store, Rejected(fault.value))
    else if KeyTaken(store, o) then
      (store, AlreadyExists(KindResource(o.kind) + " \"" + o.name + "\" already exists"))
    else
      assert o in store + {o};
      (store + {o}, Created)
  }

  /** Every key/value pair of the selector is among the object's labels. */
  predicate MatchesLabels(o: Obj, selector: map<string, string>)
  {
    forall k :: k in selector ==> k in o.labels && o.labels[k] == selector[k]
  }

  predicate Selected(o: Obj, kind: Kind, namespace: string, selector: map<string, string>)
  {
    o.kind == kind && o.namespace == namespace && MatchesLabels(o, selector)
  }

  /**
    The API server's DeleteAllOf: remove every object of the kind in the namespace that carries
    the selector's labels. It only removes, leaves nothing it selects, and spares every object
    it does not select: in particular those of another kind or namespace, and those of the
    same kind and namespace whose labels do not match.
  */
  function DeleteAllOf(store: Store, kind: Kind, namespace: string, selector: map<string, string>): (r: Store)
    ensures r <= store
    ensures forall o :: o in r ==> !Selected(o, kind, namespace, selector)
    ensures forall o :: o in store && (o.kind != kind || o.namespace != namespace) ==> o in r
    ensures forall o :: o in store && !Selected(o, kind, namespace, selector) ==> o in r
  {
    set o | o in store && !Selected(o, kind, namespace, selector)
  }
}

=== FILE: kubectl_terminal.dfy ===
/**
  The kubectl terminal handler of pkg/handlers/kubectl_terminal_handler.go: admission check,
  idempotent bootstrap of the shared admin ServiceAccount and ClusterRoleBinding, creation of
  the per-session agent pod, the readiness wait, the hand-off to the attach bridge, and the
  label-scoped cleanup that runs on every path after a pod-create attempt.

  The websocket, the Kubernetes client and the attach bridge are inputs: the admission
  decision, the result of each Create, the wait's event list, and the errors of the attach
  bridge and of DeleteAllOf. A run returns the messages sent, the API calls made in order,
  the log lines written and how the handler ended.
*/
module KubectlTerminal {
  import opened Opt
  import opened Pods
  import opened Channel
  import opened ClusterStore
  import opened Readiness
  import AgentNames

  const AdminServiceAccount: string := "kite-kubectl-admin"
  const ManagedByKey: string := "app.kubernetes.io/managed-by"
  const ManagedByValue: string := "kite"
  const ComponentKey: string := "kite.io/component"
  const ComponentValue: string := "kubectl-terminal"
  /** The correlation label: its value on the agent pod is the session's instance id. */
  const SessionKey: string := "kite.io/kubectl-session"
  const DeniedText: string := "kubectl terminal is only available to admin users"

  /** The program constants the handler reads: the agent namespace and the agent-name prefix. */
  datatype Config = Config(agentNamespace: string, agentPrefix: string)

  /** A prefix longer than this makes GenerateKubectlAgentName panic on a negative slice bound. */
  predicate ValidConfig(cfg: Config)
  {
    |cfg.agentPrefix| <= AgentNames.MaxPrefixLength
  }

  function SharedLabels(): map<string, string>
  {
    map[ManagedByKey := ManagedByValue, ComponentKey := ComponentValue]
  }

  function AdminServiceAccountObj(cfg: Config): Obj
  {
    Obj(ServiceAccountKind, cfg.agentNamespace, AdminServiceAccount, SharedLabels())
  }

  /** The ClusterRoleBinding is cluster-scoped: empty namespace. */
  function AdminBindingObj(): Obj
  {
    Obj(ClusterRoleBindingKind, "", AdminServiceAccount, SharedLabels())
  }

  /** createKubectlAgent's pod: named after the instance id and labelled with it. */
  function AgentPod(cfg: Config, id: string): Obj
  {
    Obj(PodKind, cfg.agentNamespace, id, SharedLabels()[SessionKey := id])
  }

  function SessionSelector(id: string): map<string, string>
  {
    map[SessionKey := id]
  }

  /** cleanupPod: DeleteAllOf pods in the agent namespace carrying the session label. */
  function CleanupCall(cfg: Config, id: string): Action
  {
    DeleteAllOfCall(PodKind, cfg.agentNamespace, SessionSelector(id))
  }

  /** The calls ensureAdminServiceAccount made and the error it returned. */
  datatype Bootstrap = Bootstrap(actions: seq<Action>, err: Option<string>)

  /**
    ensureAdminServiceAccount: create the ServiceAccount, then the ClusterRoleBinding, with
    AlreadyExists counted as success; the first other failure is returned and stops it.
  */
  function EnsureAdminServiceAccount(cfg: Config, sa: CreateResult, crb: CreateResult): (b: Bootstrap)
    ensures b.err.None? <==> !sa.Rejected? && !crb.Rejected?
    ensures |b.actions| == (if sa.Rejected? then 1 else 2)
    ensures b.actions[0] == CreateCall(AdminServiceAccountObj(cfg))
    ensures |b.actions| == 2 ==> b.actions[1] == CreateCall(AdminBindingObj())
    ensures sa.Rejected? ==> b.err == Some("failed to create ServiceAccount: " + sa.reason)
    ensures !sa.Rejected? && crb.Rejected? ==> b.err == Some("failed to create ClusterRoleBinding: " + crb.reason)
  {
    var first := [CreateCall(AdminServiceAccountObj(cfg))];
    if sa.Rejected? then
      Bootstrap(first, Some("failed to create ServiceAccount: " + sa.reason))
    else
      var both := first + [CreateCall(AdminBindingObj())];
      if crb.Rejected? then
        Bootstrap(both, Some("failed to create ClusterRoleBinding: " + crb.reason))
      else
        Bootstrap(both, None)
  }

  /** Everything the environment decides for one websocket session. */
  datatype Inputs = Inputs(
    isAdmin: bool,
    userKey: string,
    suffix: string,
    saResult: CreateResult,
    crbResult: CreateResult,
    podResult: CreateResult,
    schedule: seq<WaitEvent>,
    attachErr: Option<string>,
    cleanupErr: Option<string>)

  /** RandomString(5) yields five characters. */
  predicate ValidInputs(inp: Inputs)
  {
    |inp.suffix| == AgentNames.SuffixLength
  }

  /**
    How the handler ended. `StillWaiting`: the event list ran out during the readiness wait,
    so the session is still in progress and its deferred cleanup has not run yet.
  */
  datatype Outcome = Denied | SetupFailed | ProvisionFailed | ReadyTimedOut | Streamed(afterCancel: bool) | StillWaiting

  datatype Run = Run(messages: seq<Message>, actions: seq<Action>, logs: seq<string>, outcome: Outcome)

  function InstanceId(cfg: Config, inp: Inputs): string
    requires ValidConfig(cfg) && ValidInputs(inp)
  {
    AgentNames.GenerateKubectlAgentName(inp.userKey, cfg.agentPrefix, inp.suffix)
  }

  /** The deferred cleanup's log lines: the notice, then the error if DeleteAllOf failed. */
  function CleanupLogs(id: string, err: Option<string>): seq<string>
  {
    ["Cleaning up kubectl pod " + id]
    + (if err.Some? then ["Failed to cleanup kubectl pod " + id + ": " + err.value] else [])
  }

  function AttachLogs(err: Option<string>): seq<string>
  {
    if err.Some? then ["Kubectl terminal session error: " + err.value] else []
  }

  /** The admin is allowed and both shared objects are in place: the handler goes on to the pod. */
  predicate SetupSucceeds(inp: Inputs)
  {
    inp.isAdmin && !inp.saResult.Rejected? && !inp.crbResult.Rejected?
  }

  /**
    The handler body for the session's agent name `id`, with the readiness wait's run `w`
    supplied; `w` is consulted only on the path where the agent pod was created.
  */
  function Respond(cfg: Config, inp: Inputs, id: string, w: WaitRun): Run
  {
    if !inp.isAdmin then
      Run([ErrorMsg(DeniedText)], [], [], Denied)
    else
      var boot := EnsureAdminServiceAccount(cfg, inp.saResult, inp.crbResult);
      if boot.err.Some? then
        Run([ErrorMsg("Failed to setup kubectl terminal: " + boot.err.value)],
            boot.actions,
            ["Failed to ensure kubectl admin SA: " + boot.err.value],
            SetupFailed)
      else
        var created := boot.actions + [CreateCall(AgentPod(cfg, id))];
        if !inp.podResult.Created? then
          // createKubectlAgent treats every Create error, AlreadyExists included, as failure;
          // the cleanup error is discarded on this path.
          var err := "failed to create kubectl agent pod: " + inp.podResult.reason;
          Run([ErrorMsg("Failed to create kubectl agent pod: " + err)],
              created + [CleanupCall(cfg, id)],
              ["Failed to create kubectl agent pod: " + err],
              ProvisionFailed)
        else
          var polled := created + w.actions;
          if w.outcome == Unfinished then
            Run(w.messages, polled, [], StillWaiting)
          else if w.err.Some? then
            // The error waitForPodReady returned is reported and logged as it is.
            Run(w.messages + [ErrorMsg("Failed to wait for kubectl agent pod ready: " + w.err.value)],
                polled + [CleanupCall(cfg, id)],
                ["Failed to wait for kubectl agent pod ready: " + w.err.value] + CleanupLogs(id, inp.cleanupErr),
                ReadyTimedOut)
          else
            // waitForPodReady returned nil: ready, or the session context was cancelled.
            Run(w.messages,
                polled + [AttachCall(cfg.agentNamespace, id), CleanupCall(cfg, id)],
                AttachLogs(inp.attachErr) + CleanupLogs(id, inp.cleanupErr),
                Streamed(w.outcome == Canceled))
  }

  /** A wait run returns an error exactly when it timed out, as waitForPodReady does. */
  predicate FailsOnlyOnTimeout(w: WaitRun)
  {
    w.err.Some? <==> w.outcome == TimedOut
  }

  /** HandleKubectlTerminalWebSocket: the handler body, waiting on the session's own events. */
  function Handle(cfg: Config, inp: Inputs): Run
    requires ValidConfig(cfg) && ValidInputs(inp)
  {
    var id := InstanceId(cfg, inp);
    Respond(cfg, inp, id, WaitForPodReady(cfg.agentNamespace, id, inp.schedule))
  }

  // ---------------------------------------------------------------------------------------
  // Counting the calls a run makes

  datatype CallClass = PodCreates | Deletes | Attaches

  predicate InClass(a: Action, c: CallClass)
  {
    match c
    case PodCreates => a.CreateCall? && a.obj.kind == PodKind
    case Deletes => a.DeleteAllOfCall?
    case Attaches => a.AttachCall?
  }

  function CountCalls(acts: seq<Action>, c: CallClass): nat
  {
    if |acts| == 0 then 0
    else (if InClass(acts[0], c) then 1 else 0) + CountCalls(acts[1..], c)
  }

  /** None of the counted calls (pod creates, deletes, attaches) occurs. */
  predicate NoCountedCalls(acts: seq<Action>)
  {
    CountCalls(acts, PodCreates) == 0 && CountCalls(acts, Deletes) == 0 && CountCalls(acts, Attaches) == 0
  }

  lemma {:induction false} CountCallsAppend(a: seq<Action>, b: seq<Action>, c: CallClass)
    ensures CountCalls(a + b, c) == CountCalls(a, c) + CountCalls(b, c)
    decreases |a|
  {
    if |a| == 0 {
      assert a + b == b;
    } else {
      assert (a + b)[1..] == a[1..] + b;
      CountCallsAppend(a[1..], b, c);
    }
  }

  /** Gets are not counted. */
  lemma {:induction false} PollsCount(namespace: string, podName: string, n: nat, c: CallClass)
    ensures CountCalls(Polls(namespace, podName, n), c) == 0
    decreases n
  {
    if n > 0 {
      assert Polls(namespace, podName, n)[1..] == Polls(namespace, podName, n - 1);
      PollsCount(namespace, podName, n - 1, c);
    }
  }

  /** The readiness wait only issues Gets. */
  lemma WaitOnlyPolls(namespace: string, podName: string, es: seq<WaitEvent>)
    ensures NoCountedCalls(WaitForPodReady(namespace, podName, es).actions)
  {
    var w := WaitForPodReady(namespace, podName, es);
    var n := FirstEnd(es) + (if w.outcome == Ready then 1 else 0);
    WaitShape(namespace, podName, es);
    PollsCount(namespace, podName, n, PodCreates);
    PollsCount(namespace, podName, n, Deletes);
    PollsCount(namespace, podName, n, Attaches);
  }

  lemma BootstrapCount(cfg: Config, sa: CreateResult, crb: CreateResult, c: CallClass)
    ensures CountCalls(EnsureAdminServiceAccount(cfg, sa, crb).actions, c) == 0
  {
    var acts := EnsureAdminServiceAccount(cfg, sa, crb).actions;
    assert !InClass(acts[0], c);
    if |acts| == 2 {
      assert CountCalls(acts[1..], c) == 0 by {
        assert acts[1..][0] == acts[1];
        assert acts[1..][1..] == [];
      }
    } else {
      assert acts[1..] == [];
    }
  }

  lemma SingleCount(a: Action, c: CallClass)
    ensures CountCalls([a], c) == (if InClass(a, c) then 1 else 0)
  {
    assert [a][1..] == [];
  }

  /** Counting over a handler trace: bootstrap, the pod create, the polls, then the closing calls. */
  lemma TraceCount(boot: seq<Action>, create: Action, polls: seq<Action>, tail: seq<Action>, c: CallClass)
    requires CountCalls(boot, c) == 0 && CountCalls(polls, c) == 0
    ensures CountCalls(boot + [create] + polls + tail, c) == CountCalls([create], c) + CountCalls(tail, c)
  {
    CountCallsAppend(boot, [create], c);
    CountCallsAppend(boot + [create], polls, c);
    CountCallsAppend(boot + [create] + polls, tail, c);
  }

  /** The calls that close a run, by the path taken after the pod create. */
  function Tail(cfg: Config, id: string, podCreated: bool, o: WaitOutcome): seq<Action>
  {
    if !podCreated || o == TimedOut then [CleanupCall(cfg, id)]
    else if o == Unfinished then []
    else [AttachCall(cfg.agentNamespace, id), CleanupCall(cfg, id)]
  }

  lemma TailCount(cfg: Config, id: string, podCreated: bool, o: WaitOutcome, c: CallClass)
    ensures var t := Tail(cfg, id, podCreated, o);
            CountCalls(t, c) == (if c == PodCreates || t == [] then 0 else if c == Deletes then 1
                                 else if |t| == 2 then 1 else 0)
  {
    var t := Tail(cfg, id, podCreated, o);
    var attach, cleanup := AttachCall(cfg.agentNamespace, id), CleanupCall(cfg, id);
    SingleCount(attach, c);
    SingleCount(cleanup, c);
    if |t| == 2 {
      assert t == [attach] + [cleanup];
      CountCallsAppend([attach], [cleanup], c);
    }
  }

  /** A run that got past the bootstrap has the shape bootstrap + create + polls + closing calls. */
  lemma RespondShape(cfg: Config, inp: Inputs, id: string, w: WaitRun)
    requires FailsOnlyOnTimeout(w)
    requires SetupSucceeds(inp)
    ensures var boot := EnsureAdminServiceAccount(cfg, inp.saResult, inp.crbResult).actions;
            var polls := if inp.podResult.Created? then w.actions else [];
            Respond(cfg, inp, id, w).actions == boot + [CreateCall(AgentPod(cfg, id))] + polls
                                                + Tail(cfg, id, inp.podResult.Created?, w.outcome)
  {
  }

  /** A run has attempted to create the agent pod: the create call for it appears among its actions. */
  predicate PodCreateAttempted(cfg: Config, id: string, acts: seq<Action>)
  {
    CreateCall(AgentPod(cfg, id)) in acts
  }

  /** The outcomes in which the handler has returned, so its deferred calls have run. */
  predicate Finished(o: Outcome)
  {
    o != StillWaiting
  }

  lemma EarlyExitActions(cfg: Config, inp: Inputs, id: string, w: WaitRun)
    requires !SetupSucceeds(inp)
    ensures var r := Respond(cfg, inp, id, w);
            && !PodCreateAttempted(cfg, id, r.actions)
            && NoCountedCalls(r.actions) && !r.outcome.Streamed? && Finished(r.outcome)
  {
    if inp.isAdmin {
      BootstrapCount(cfg, inp.saResult, inp.crbResult, PodCreates);
      BootstrapCount(cfg, inp.saResult, inp.crbResult, Deletes);
      BootstrapCount(cfg, inp.saResult, inp.crbResult, Attaches);
      var acts := EnsureAdminServiceAccount(cfg, inp.saResult, inp.crbResult).actions;
      assert CreateCall(AgentPod(cfg, id)) !in acts by {
        assert |acts| == 2 ==> acts == [acts[0], acts[1]];
      }
    }
  }

  /** The call accounting of `CleanupExactlyOnce`, for any wait run that makes no counted call. */
  lemma RespondCleanup(cfg: Config, inp: Inputs, id: string, w: WaitRun)
    requires FailsOnlyOnTimeout(w)
    requires NoCountedCalls(w.actions)
    ensures var r := Respond(cfg, inp, id, w);
            && CountCalls(r.actions, PodCreates) == (if PodCreateAttempted(cfg, id, r.actions) then 1 else 0)
            && (Finished(r.outcome) ==> CountCalls(r.actions, Deletes) == CountCalls(r.actions, PodCreates))
            && (r.outcome == StillWaiting ==> CountCalls(r.actions, Deletes) == 0 && PodCreateAttempted(cfg, id, r.actions))
            && (Finished(r.outcome) && PodCreateAttempted(cfg, id, r.actions) ==> r.actions[|r.actions| - 1] == CleanupCall(cfg, id))
            && CountCalls(r.actions, Attaches) == (if r.outcome.Streamed? then 1 else 0)
            && (r.outcome.Streamed? ==> |r.actions| >= 2 && r.actions[|r.actions| - 2] == AttachCall(cfg.agentNamespace, id))
  {
    if !SetupSucceeds(inp) {
      EarlyExitActions(cfg, inp, id, w);
      return;
    }
    var r := Respond(cfg, inp, id, w);
    var boot := EnsureAdminServiceAccount(cfg, inp.saResult, inp.crbResult).actions;
    BootstrapCount(cfg, inp.saResult, inp.crbResult, PodCreates);
    BootstrapCount(cfg, inp.saResult, inp.crbResult, Deletes);
    BootstrapCount(cfg, inp.saResult, inp.crbResult, Attaches);
    var create := CreateCall(AgentPod(cfg, id));
    var polls := if inp.podResult.Created? then w.actions else [];
    var tail := Tail(cfg, id, inp.podResult.Created?, w.outcome);
    RespondShape(cfg, inp, id, w);
    assert r.actions == boot + [create] + polls + tail;
    assert r.actions[|boot|] == create;
    TraceCount(boot, create, polls, tail, PodCreates);
    TraceCount(boot, create, polls, tail, Deletes);
    TraceCount(boot, create, polls, tail, Attaches);
    SingleCount(create, PodCreates);
    SingleCount(create, Deletes);
    SingleCount(create, Attaches);
    TailCount(cfg, id, inp.podResult.Created?, w.outcome, PodCreates);
    TailCount(cfg, id, inp.podResult.Created?, w.outcome, Deletes);
    TailCount(cfg, id, inp.podResult.Created?, w.outcome, Attaches);
  }

  /**
    The cleanup guarantee: once the handler has returned, it issued exactly one DeleteAllOf
    if it attempted the session's pod-create and none otherwise, and that delete is its last
    call; an attach happens only on the streaming path, directly before the cleanup.
  */
  lemma CleanupExactlyOnce(cfg: Config, inp: Inputs)
    requires ValidConfig(cfg) && ValidInputs(inp)
    ensures var r := Handle(cfg, inp);
            var id := InstanceId(cfg, inp);
            && CountCalls(r.actions, PodCreates) == (if PodCreateAttempted(cfg, id, r.actions) then 1 else 0)
            && (Finished(r.outcome) ==> CountCalls(r.actions, Deletes) == CountCalls(r.actions, PodCreates))
            && (r.outcome == StillWaiting ==> CountCalls(r.actions, Deletes) == 0 && PodCreateAttempted(cfg, id, r.actions))
            && (Finished(r.outcome) && PodCreateAttempted(cfg, id, r.actions) ==> r.actions[|r.actions| - 1] == CleanupCall(cfg, id))
            && CountCalls(r.actions, Attaches) == (if r.outcome.Streamed? then 1 else 0)
            && (r.outcome.Streamed? ==> |r.actions| >= 2 && r.actions[|r.actions| - 2] == AttachCall(cfg.agentNamespace, id))
  {
    var id := InstanceId(cfg, inp);
    WaitOnlyPolls(cfg.agentNamespace, id, inp.schedule);
    WaitShape(cfg.agentNamespace, id, inp.schedule);
    RespondCleanup(cfg, inp, id, WaitForPodReady(cfg.agentNamespace, id, inp.schedule));
  }

  /** A denied or failed-bootstrap session creates no pod, deletes nothing and does not attach. */
  lemma NoPodWithoutSetup(cfg: Config, inp: Inputs)
    requires ValidConfig(cfg) && ValidInputs(inp) && !SetupSucceeds(inp)
    ensures var r := Handle(cfg, inp);
            !PodCreateAttempted(cfg, InstanceId(cfg, inp), r.actions) && NoCountedCalls(r.actions)
  {
    var id := InstanceId(cfg, inp);
    EarlyExitActions(cfg, inp, id, WaitForPodReady(cfg.agentNamespace, id, inp.schedule));
  }

  // ---------------------------------------------------------------------------------------
  // What the client sees, and how the run ends

  /** The path a run takes, given the wait run's outcome. */
  lemma RespondOutcome(cfg: Config, inp: Inputs, id: string, w: WaitRun)
    requires FailsOnlyOnTimeout(w)
    ensures var r := Respond(cfg, inp, id, w);
            var ok := SetupSucceeds(inp);
            && (r.outcome == Denied <==> !inp.isAdmin)
            && (r.outcome == SetupFailed <==> inp.isAdmin && !ok)
            && (r.outcome == ProvisionFailed <==> ok && !inp.podResult.Created?)
            && (r.outcome == StillWaiting <==> ok && inp.podResult.Created? && w.outcome == Unfinished)
            && (r.outcome == ReadyTimedOut <==> ok && inp.podResult.Created? && w.outcome == TimedOut)
            && (r.outcome == Streamed(false) <==> ok && inp.podResult.Created? && w.outcome == Ready)
            && (r.outcome == Streamed(true) <==> ok && inp.podResult.Created? && w.outcome == Canceled)
  {
  }

  /** How each path is chosen: the outcome is decided by the inputs in the order the handler checks them. */
  lemma OutcomeByInputs(cfg: Config, inp: Inputs)
    requires ValidConfig(cfg) && ValidInputs(inp)
    ensures var r := Handle(cfg, inp);
            var ok := SetupSucceeds(inp);
            var o := OutcomeOf(inp.schedule);
            && (r.outcome == Denied <==> !inp.isAdmin)
            && (r.outcome == SetupFailed <==> inp.isAdmin && !ok)
            && (r.outcome == ProvisionFailed <==> ok && !inp.podResult.Created?)
            && (r.outcome == StillWaiting <==> ok && inp.podResult.Created? && o == Unfinished)
            && (r.outcome == ReadyTimedOut <==> ok && inp.podResult.Created? && o == TimedOut)
            && (r.outcome == Streamed(false) <==> ok && inp.podResult.Created? && o == Ready)
            && (r.outcome == Streamed(true) <==> ok && inp.podResult.Created? && o == Canceled)
  {
    var id := InstanceId(cfg, inp);
    var w := WaitForPodReady(cfg.agentNamespace, id, inp.schedule);
    WaitShape(cfg.agentNamespace, id, inp.schedule);
    RespondOutcome(cfg, inp, id, w);
  }

  /** The messages of each path, for a wait run that opens with an info message. */
  lemma RespondMessages(cfg: Config, inp: Inputs, id: string, w: WaitRun)
    requires FailsOnlyOnTimeout(w)
    requires |w.messages| >= 1 && w.messages[0].kind == Info
    ensures var r := Respond(cfg, inp, id, w);
            && (r.outcome in {Denied, SetupFailed, ProvisionFailed} <==> |r.messages| == 1 && r.messages[0].kind == Error)
            && (r.outcome == Denied ==> r.messages == [ErrorMsg(DeniedText)] && r.actions == [])
            && (r.outcome == SetupFailed ==>
                  var e := EnsureAdminServiceAccount(cfg, inp.saResult, inp.crbResult).err.value;
                  r.messages == [ErrorMsg("Failed to setup kubectl terminal: " + e)]
                  && r.logs == ["Failed to ensure kubectl admin SA: " + e])
            && (r.outcome == ReadyTimedOut ==>
                  r.messages == w.messages + [ErrorMsg("Failed to wait for kubectl agent pod ready: " + w.err.value)])
            && (r.outcome in {StillWaiting, Streamed(false), Streamed(true)} ==> r.messages == w.messages)
  {
    var r := Respond(cfg, inp, id, w);
    if !inp.isAdmin {
      assert r.outcome == Denied;
    } else if !SetupSucceeds(inp) {
      assert r.outcome == SetupFailed;
    } else if !inp.podResult.Created? {
      assert r.outcome == ProvisionFailed;
    } else if w.outcome == TimedOut {
      assert r.outcome == ReadyTimedOut && r.messages[0] == w.messages[0];
    } else {
      assert r.messages == w.messages && r.outcome in {StillWaiting, Streamed(false), Streamed(true)};
    }
  }

  /**
    Every path that fails before the wait sends the client exactly one message, an error:
    the admin-only notice with no call made, or the setup failure, also written to the log.
  */
  lemma EarlyFailureSendsOneError(cfg: Config, inp: Inputs)
    requires ValidConfig(cfg) && ValidInputs(inp)
    ensures var r := Handle(cfg, inp);
            && (r.outcome in {Denied, SetupFailed, ProvisionFailed} <==> |r.messages| == 1 && r.messages[0].kind == Error)
            && (r.outcome == Denied ==> r.messages == [ErrorMsg(DeniedText)] && r.actions == [])
            && (r.outcome == SetupFailed ==>
                  var e := EnsureAdminServiceAccount(cfg, inp.saResult, inp.crbResult).err.value;
                  r.messages == [ErrorMsg("Failed to setup kubectl terminal: " + e)]
                  && r.logs == ["Failed to ensure kubectl admin SA: " + e])
  {
    var id := InstanceId(cfg, inp);
    var w := WaitForPodReady(cfg.agentNamespace, id, inp.schedule);
    WaitShape(cfg.agentNamespace, id, inp.schedule);
    RespondMessages(cfg, inp, id, w);
  }

  /**
    Once the pod exists, the first message is the waiting notice and the errors sent are exactly
    the two of a timeout: the error text of the last pod fetched, then the wait failure as the
    last message.
  */
  lemma WaitMessages(cfg: Config, inp: Inputs)
    requires ValidConfig(cfg) && ValidInputs(inp) && SetupSucceeds(inp) && inp.podResult.Created?
    ensures var r := Handle(cfg, inp);
            var id := InstanceId(cfg, inp);
            && |r.messages| >= 1
            && r.messages[0] == InfoMsg(WaitingText(id))
            && CountKind(r.messages, Error) == (if r.outcome == ReadyTimedOut then 2 else 0)
            && (r.outcome == ReadyTimedOut ==>
                  && |r.messages| >= 3
                  && r.messages[|r.messages| - 2] == ErrorMsg(GetPodErrorMessage(LastObserved(inp.schedule[..FirstEnd(inp.schedule)], None)))
                  && r.messages[|r.messages| - 1] == ErrorMsg("Failed to wait for kubectl agent pod ready: " + TimeoutText(id)))
            && (r.outcome == Streamed(false) ==> r.messages[|r.messages| - 1] == InfoMsg(ReadyText))
  {
    var id := InstanceId(cfg, inp);
    var w := WaitForPodReady(cfg.agentNamespace, id, inp.schedule);
    WaitShape(cfg.agentNamespace, id, inp.schedule);
    WaitMessageCounts(cfg.agentNamespace, id, inp.schedule);
    RespondMessages(cfg, inp, id, w);
    RespondOutcome(cfg, inp, id, w);
    if w.outcome == TimedOut {
      var last := ErrorMsg("Failed to wait for kubectl agent pod ready: " + TimeoutText(id));
      CountKindAppend(w.messages, [last], Error);
      SingleKindCount(last, Error);
    }
  }

  /**
    A cancelled context still attaches and still cleans up (waitForPodReady returns nil), and
    nothing is sent to the client after the cancel.
  */
  lemma CancelStillAttaches(cfg: Config, inp: Inputs, k: nat)
    requires ValidConfig(cfg) && ValidInputs(inp) && SetupSucceeds(inp) && inp.podResult.Created?
    requires k < |inp.schedule| && inp.schedule[k].Cancel?
    requires forall i :: 0 <= i < k ==> !EndsWait(inp.schedule[i])
    ensures var r := Handle(cfg, inp);
            var id := InstanceId(cfg, inp);
            && r.outcome == Streamed(true)
            && |r.actions| >= 2
            && r.actions[|r.actions| - 2..] == [AttachCall(cfg.agentNamespace, id), CleanupCall(cfg, id)]
            && r.messages == Handle(cfg, inp.(schedule := inp.schedule[..k])).messages
            && Handle(cfg, inp.(schedule := inp.schedule[..k])).outcome == StillWaiting
  {
    var id := InstanceId(cfg, inp);
    var before := inp.(schedule := inp.schedule[..k]);
    assert InstanceId(cfg, before) == id;
    var w, w0 := WaitForPodReady(cfg.agentNamespace, id, inp.schedule), WaitForPodReady(cfg.agentNamespace, id, before.schedule);
    CancelSendsNothing(cfg.agentNamespace, id, inp.schedule, k);
    WaitShape(cfg.agentNamespace, id, inp.schedule);
    WaitShape(cfg.agentNamespace, id, before.schedule);
    RespondOutcome(cfg, inp, id, w);
    RespondOutcome(cfg, before, id, w0);
    RespondMessages(cfg, inp, id, w);
    RespondMessages(cfg, before, id, w0);
    RespondShape(cfg, inp, id, w);
  }

  /** The errors of the deferred cleanup and of the attach bridge only reach the log. */
  lemma RespondErrorsOnlyLogged(cfg: Config, inp: Inputs, id: string, w: WaitRun, cleanupErr: Option<string>, attachErr: Option<string>)
    ensures var r, q := Respond(cfg, inp, id, w), Respond(cfg, inp.(cleanupErr := cleanupErr, attachErr := attachErr), id, w);
            r.messages == q.messages && r.actions == q.actions && r.outcome == q.outcome
  {
  }

  /** The deferred cleanup's error only reaches the log: messages, calls and outcome ignore it. */
  lemma CleanupErrorOnlyLogged(cfg: Config, inp: Inputs, e: Option<string>)
    requires ValidConfig(cfg) && ValidInputs(inp)
    ensures var r, q := Handle(cfg, inp), Handle(cfg, inp.(cleanupErr := e));
            r.messages == q.messages && r.actions == q.actions && r.outcome == q.outcome
  {
    var id := InstanceId(cfg, inp);
    assert InstanceId(cfg, inp.(cleanupErr := e)) == id;
    RespondErrorsOnlyLogged(cfg, inp, id, WaitForPodReady(cfg.agentNamespace, id, inp.schedule), e, inp.attachErr);
    assert inp.(cleanupErr := e, attachErr := inp.attachErr) == inp.(cleanupErr := e);
  }

  /** The attach bridge's error only reaches the log. */
  lemma AttachErrorOnlyLogged(cfg: Config, inp: Inputs, e: Option<string>)
    requires ValidConfig(cfg) && ValidInputs(inp)
    ensures var r, q := Handle(cfg, inp), Handle(cfg, inp.(attachErr := e));
            r.messages == q.messages && r.actions == q.actions && r.outcome == q.outcome
  {
    var id := InstanceId(cfg, inp);
    assert InstanceId(cfg, inp.(attachErr := e)) == id;
    RespondErrorsOnlyLogged(cfg, inp, id, WaitForPodReady(cfg.agentNamespace, id, inp.schedule), inp.cleanupErr, e);
    assert inp.(cleanupErr := inp.cleanupErr, attachErr := e) == inp.(attachErr := e);
  }

  /**
    What the log receives after the pod-create attempt: a failed create logs only its own
    error and drops the cleanup's; a timeout logs the wait error, then the cleanup lines; a
    streamed session logs the bridge's error, if any, then the cleanup lines. The cleanup
    error, when it is logged, is the last line.
  */
  lemma HandleLogs(cfg: Config, inp: Inputs)
    requires ValidConfig(cfg) && ValidInputs(inp) && SetupSucceeds(inp)
    ensures var r := Handle(cfg, inp);
            var id := InstanceId(cfg, inp);
            && (r.outcome == ProvisionFailed ==>
                  r.logs == ["Failed to create kubectl agent pod: " + ("failed to create kubectl agent pod: " + inp.podResult.reason)])
            && (r.outcome == ReadyTimedOut ==>
                  |r.logs| >= 1 && r.logs[1..] == CleanupLogs(id, inp.cleanupErr))
            && (r.outcome.Streamed? ==> r.logs == AttachLogs(inp.attachErr) + CleanupLogs(id, inp.cleanupErr))
            && (r.outcome.Streamed? && inp.attachErr.Some? ==>
                  r.logs[0] == "Kubectl terminal session error: " + inp.attachErr.value)
            && ((r.outcome == ReadyTimedOut || r.outcome.Streamed?) && inp.cleanupErr.Some? ==>
                  r.logs[|r.logs| - 1] == "Failed to cleanup kubectl pod " + id + ": " + inp.cleanupErr.value)
  {
    var id := InstanceId(cfg, inp);
    WaitShape(cfg.agentNamespace, id, inp.schedule);
    RespondLogs(cfg, inp, id, WaitForPodReady(cfg.agentNamespace, id, inp.schedule));
  }

  lemma RespondLogs(cfg: Config, inp: Inputs, id: string, w: WaitRun)
    requires SetupSucceeds(inp) && FailsOnlyOnTimeout(w)
    ensures var r := Respond(cfg, inp, id, w);
            && (r.outcome == ProvisionFailed ==>
                  r.logs == ["Failed to create kubectl agent pod: " + ("failed to create kubectl agent pod: " + inp.podResult.reason)])
            && (r.outcome == ReadyTimedOut ==>
                  |r.logs| >= 1 && r.logs[1..] == CleanupLogs(id, inp.cleanupErr))
            && (r.outcome.Streamed? ==> r.logs == AttachLogs(inp.attachErr) + CleanupLogs(id, inp.cleanupErr))
            && (r.outcome.Streamed? && inp.attachErr.Some? ==>
                  r.logs[0] == "Kubectl terminal session error: " + inp.attachErr.value)
            && ((r.outcome == ReadyTimedOut || r.outcome.Streamed?) && inp.cleanupErr.Some? ==>
                  r.logs[|r.logs| - 1] == "Failed to cleanup kubectl pod " + id + ": " + inp.cleanupErr.value)
  {
    var r := Respond(cfg, inp, id, w);
    var cleanup := CleanupLogs(id, inp.cleanupErr);
    if !inp.podResult.Created? || w.outcome == Unfinished {
    } else if w.err.Some? {
      var head := ["Failed to wait for kubectl agent pod ready: " + w.err.value];
      assert r.logs == head + cleanup;
      SplitAfter(head, cleanup, r.logs);
    } else {
      assert r.logs == AttachLogs(inp.attachErr) + cleanup;
      SplitAfter(AttachLogs(inp.attachErr), cleanup, r.logs);
    }
  }

  /** A concatenation continues with its second part and ends with that part's last element. */
  lemma SplitAfter<T>(a: seq<T>, b: seq<T>, s: seq<T>)
    requires s == a + b && |b| >= 1
    ensures s[|a|..] == b && s[|s| - 1] == b[|b| - 1]
    ensures |a| >= 1 ==> s[0] == a[0]
  {
  }

  // ---------------------------------------------------------------------------------------
  // Session scoping of the cleanup

  /** The cleanup selects exactly the pods in the agent namespace labelled with this session. */
  lemma CleanupSelects(cfg: Config, id: string, o: Obj)
    ensures var c := CleanupCall(cfg, id);
            Selected(o, c.kind, c.namespace, c.selector)
            <==> o.kind == PodKind && o.namespace == cfg.agentNamespace && SessionKey in o.labels && o.labels[SessionKey] == id
  {
    var c := CleanupCall(cfg, id);
    if o.kind == PodKind && o.namespace == cfg.agentNamespace && SessionKey in o.labels && o.labels[SessionKey] == id {
      assert MatchesLabels(o, c.selector);
    }
  }

  /**
    The agent pod is named after the instance id and carries it as the session label, so the
    cleanup selects it; it never selects the admin ServiceAccount, the ClusterRoleBinding, or
    another session's pod.
  */
  lemma CleanupIsSessionScoped(cfg: Config, id: string, other: string)
    requires other != id
    ensures AgentPod(cfg, id).name == id && AgentPod(cfg, id).labels[SessionKey] == id
    ensures var c := CleanupCall(cfg, id);
            && Selected(AgentPod(cfg, id), c.kind, c.namespace, c.selector)
            && !Selected(AgentPod(cfg, other), c.kind, c.namespace, c.selector)
            && !Selected(AdminServiceAccountObj(cfg), c.kind, c.namespace, c.selector)
            && !Selected(AdminBindingObj(), c.kind, c.namespace, c.selector)
  {
    CleanupSelects(cfg, id, AgentPod(cfg, id));
    CleanupSelects(cfg, id, AgentPod(cfg, other));
  }

  /** The instance id is a DNS-1123 label when the configured prefix is one and the suffix is lower-case alphanumeric. */
  lemma InstanceIdIsPodName(cfg: Config, inp: Inputs)
    requires ValidConfig(cfg) && ValidInputs(inp)
    requires 1 <= |cfg.agentPrefix| && AgentNames.AllLabelChars(cfg.agentPrefix) && AgentNames.IsLowerAlnum(cfg.agentPrefix[0])
    requires AgentNames.AllLowerAlnum(inp.suffix)
    ensures AgentNames.IsDnsLabel(AgentPod(cfg, InstanceId(cfg, inp)).name)
  {
    AgentNames.KubectlAgentNameIsDnsLabel(inp.userKey, cfg.agentPrefix, inp.suffix);
  }

  /** Applying the cleanup to a cluster removes this session's pods and nothing else. */
  lemma CleanupOnStore(cfg: Config, store: Store, id: string, other: string)
    requires other != id
    ensures var c := CleanupCall(cfg, id);
            var after := DeleteAllOf(store, c.kind, c.namespace, c.selector);
            && AgentPod(cfg, id) !in after
            && (AgentPod(cfg, other) in after <==> AgentPod(cfg, other) in store)
            && (AdminServiceAccountObj(cfg) in after <==> AdminServiceAccountObj(cfg) in store)
            && (AdminBindingObj() in after <==> AdminBindingObj() in store)
            && after <= store
  {
    CleanupIsSessionScoped(cfg, id, other);
  }

  // ---------------------------------------------------------------------------------------
  // The bootstrap against a cluster

  lemma KeyTakenGrows(a: Store, b: Store, o: Obj)
    requires a <= b && KeyTaken(a, o)
    ensures KeyTaken(b, o)
  {
    var x :| x in a && SameKey(x, o);
    assert x in b;
  }

  /**
    ensureAdminServiceAccount run against a cluster: each Create may fail with a request
    error (`saFault`, `crbFault`); the ClusterRoleBinding is not attempted after a failed
    ServiceAccount.
  */
  function EnsureOnStore(cfg: Config, store: Store, saFault: Option<string>, crbFault: Option<string>): (r: (Store, Bootstrap))
    ensures r.1.err.None? <==> saFault.None? && crbFault.None?
    ensures store <= r.0 && r.0 <= store + {AdminServiceAccountObj(cfg), AdminBindingObj()}
    ensures r.1.err.None? ==> KeyTaken(r.0, AdminServiceAccountObj(cfg)) && KeyTaken(r.0, AdminBindingObj())
    ensures saFault.Some? ==> r.0 == store && |r.1.actions| == 1
  {
    var (s1, sa) := Create(store, AdminServiceAccountObj(cfg), saFault);
    if sa.Rejected? then
      (s1, EnsureAdminServiceAccount(cfg, sa, Created))
    else
      var (s2, crb) := Create(s1, AdminBindingObj(), crbFault);
      KeyTakenGrows(s1, s2, AdminServiceAccountObj(cfg));
      (s2, EnsureAdminServiceAccount(cfg, sa, crb))
  }

  /**
    The bootstrap is idempotent: once it has succeeded, running it again succeeds without
    changing the cluster, because both Creates now report AlreadyExists.
  */
  lemma EnsureIdempotent(cfg: Config, store: Store)
    ensures var (s1, b1) := EnsureOnStore(cfg, store, None, None);
            var (s2, b2) := EnsureOnStore(cfg, s1, None, None);
            b1.err.None? && b2.err.None? && s2 == s1 && b2.actions == b1.actions
  {
    var (s1, b1) := EnsureOnStore(cfg, store, None, None);
    var (t, sa) := Create(s1, AdminServiceAccountObj(cfg), None);
    assert sa.AlreadyExists?;
    var (t2, crb) := Create(t, AdminBindingObj(), None);
    assert crb.AlreadyExists?;
  }
}

=== FILE: opt.dfy ===
/** The optional value used for Go's nil-able pointers and error returns. */
module Opt {

  datatype Option<+T> = None | Some(value: T)
}

=== FILE: pods.dfy ===
/**
  Pod-status predicates of pkg/utils/pods.go: readiness, terminal phases and the
  diagnostic message shown when a pod does not become ready.

  A `*corev1.Pod` is an `Option<Pod>`; `None` is the nil pointer.
*/
module Pods {
  import opened Opt

  /** The pod phases Kubernetes defines. */
  datatype PodPhase = Pending | Running | Succeeded | Failed | Unknown

  /** A pod condition; type and status are the API's plain strings. */
  datatype PodCondition = PodCondition(condType: string, status: string)

  /** The waiting and terminated sub-states of a container; each carries its message when set. */
  datatype ContainerState = ContainerState(waiting: Option<string>, terminated: Option<string>)

  datatype ContainerStatus = ContainerStatus(name: string, state: ContainerState)

  datatype PodStatus = PodStatus(
    phase: PodPhase,
    conditions: seq<PodCondition>,
    containerStatuses: seq<ContainerStatus>)

  datatype Pod = Pod(name: string, namespace: string, status: PodStatus)

  const ReadyConditionType: string := "Ready"
  const ConditionTrue: string := "True"
  const NilPodMessage: string := "Pod is nil"

  predicate IsReadyCondition(c: PodCondition)
  {
    c.condType == ReadyConditionType && c.status == ConditionTrue
  }

  /** The condition loop of IsPodReady: some condition is Ready/True. */
  function HasReadyCondition(conds: seq<PodCondition>): (r: bool)
    ensures r <==> exists i :: 0 <= i < |conds| && IsReadyCondition(conds[i])
  {
    if |conds| == 0 then false
    else if IsReadyCondition(conds[0]) then true
    else
      var rest := HasReadyCondition(conds[1..]);
      assert forall i :: 1 <= i < |conds| ==> conds[i] == conds[1..][i - 1];
      rest
  }

  /** IsPodReady: non-nil, phase Running, and some condition Ready with status True. */
  function IsPodReady(pod: Option<Pod>): (r: bool)
    ensures r <==> pod.Some? && pod.value.status.phase == Running
                   && exists i :: 0 <= i < |pod.value.status.conditions|
                                  && IsReadyCondition(pod.value.status.conditions[i])
  {
    match pod
    case None => false
    case Some(p) => p.status.phase == Running && HasReadyCondition(p.status.conditions)
  }

  /** IsPodErrorOrSuccess: non-nil and in one of the two terminal phases. */
  function IsPodErrorOrSuccess(pod: Option<Pod>): (r: bool)
    ensures r ==> pod.Some?
    ensures pod.Some? ==> (r <==> pod.value.status.phase in {Failed, Succeeded})
  {
    match pod
    case None => false
    case Some(p) => p.status.phase == Failed || p.status.phase == Succeeded
  }

  predicate HasState(c: ContainerStatus)
  {
    c.state.waiting.Some? || c.state.terminated.Some?
  }

  predicate NoneHasState(statuses: seq<ContainerStatus>)
  {
    forall i :: 0 <= i < |statuses| ==> !HasState(statuses[i])
  }

  /** The message of a status that has a state; Waiting wins over Terminated. */
  function StateMessage(c: ContainerStatus): string
    requires HasState(c)
  {
    if c.state.waiting.Some? then c.state.waiting.value else c.state.terminated.value
  }

  /** The container-status loop of GetPodErrorMessage. */
  function FirstStateMessage(statuses: seq<ContainerStatus>): (r: string)
    ensures NoneHasState(statuses) ==> r == ""
    ensures forall i :: 0 <= i < |statuses| && HasState(statuses[i])
                        && (forall j :: 0 <= j < i ==> !HasState(statuses[j]))
                        ==> r == StateMessage(statuses[i])
  {
    if |statuses| == 0 then ""
    else if HasState(statuses[0]) then StateMessage(statuses[0])
    else
      var rest := FirstStateMessage(statuses[1..]);
      assert forall i :: 1 <= i < |statuses| ==> statuses[i] == statuses[1..][i - 1];
      rest
  }

  /** GetPodErrorMessage: "Pod is nil" for nil, otherwise the first container diagnostic or "". */
  function GetPodErrorMessage(pod: Option<Pod>): (r: string)
    ensures pod.None? ==> r == NilPodMessage
    ensures pod.Some? && NoneHasState(pod.value.status.containerStatuses) ==> r == ""
    ensures pod.Some? ==> forall i :: 0 <= i < |pod.value.status.containerStatuses|
                                      && HasState(pod.value.status.containerStatuses[i])
                                      && (forall j :: 0 <= j < i ==> !HasState(pod.value.status.containerStatuses[j]))
                                      ==> r == StateMessage(pod.value.status.containerStatuses[i])
  {
    match pod
    case None => NilPodMessage
    case Some(p) => FirstStateMessage(p.status.containerStatuses)
  }

  /** A ready pod is never also failed or succeeded: the phases exclude each other. */
  lemma ReadyExcludesErrorOrSuccess(pod: Option<Pod>)
    ensures !(IsPodReady(pod) && IsPodErrorOrSuccess(pod))
  {
  }

  /** Readiness depends only on which conditions are present, not on their order. */
  lemma ReadinessIgnoresConditionOrder(p: Pod, q: Pod)
    requires p.status.phase == q.status.phase
    requires multiset(p.status.conditions) == multiset(q.status.conditions)
    ensures IsPodReady(Some(p)) == IsPodReady(Some(q))
  {
    if IsPodReady(Some(p)) {
      var i :| 0 <= i < |p.status.conditions| && IsReadyCondition(p.status.conditions[i]);
      var c := p.status.conditions[i];
      assert c in multiset(q.status.conditions);
      var j :| 0 <= j < |q.status.conditions| && q.status.conditions[j] == c;
    }
    if IsPodReady(Some(q)) {
      var j :| 0 <= j < |q.status.conditions| && IsReadyCondition(q.status.conditions[j]);
      var c := q.status.conditions[j];
      assert c in multiset(p.status.conditions);
      var i :| 0 <= i < |p.status.conditions| && p.status.conditions[i] == c;
    }
  }

  /** A waiting state in the first container status decides the message, whatever its terminated state. */
  lemma WaitingPreferredOverTerminated(p: Pod)
    requires |p.status.containerStatuses| > 0 && p.status.containerStatuses[0].state.waiting.Some?
    ensures GetPodErrorMessage(Some(p)) == p.status.containerStatuses[0].state.waiting.value
  {
    assert HasState(p.status.containerStatuses[0]);
  }
}

=== FILE: readiness.dfy ===
/**
  waitForPodReady of pkg/handlers/kubectl_terminal_handler.go. The Go `select` over the
  session context, the 60-second timer and the 2-second ticker becomes a finite list of
  events; each tick carries what the pod Get returned. The list may end before the wait
  does, in which case the wait is `Unfinished`.
*/
module Readiness {
  import opened Opt
  import opened Pods
  import opened Channel
  import opened ClusterStore

  /** What a pod Get returned: a pod, or an error together with the pod value the client handed back. */
  datatype GetResult = Fetched(pod: Pod) | FetchFailed(returned: Option<Pod>)

  datatype WaitEvent = Cancel | Timeout | Tick(result: GetResult)

  datatype WaitOutcome = Ready | Canceled | TimedOut | Unfinished

  /** Messages sent, API calls made, how the wait ended, and the error it returned. */
  datatype WaitRun = WaitRun(messages: seq<Message>, actions: seq<Action>, outcome: WaitOutcome, err: Option<string>)

  const ReadyText: string := "kubectl agent ready!"
  const ProgressDot: Message := Message(Stdout, ".")

  function WaitingText(podName: string): string
  {
    "waiting for kubectl agent pod " + podName + " to be ready"
  }

  function TimeoutText(podName: string): string
  {
    "timeout waiting for kubectl agent pod " + podName + " to be ready"
  }

  /** The value the loop's `pod` variable holds after a Get: assigned even when the Get failed. */
  function Observed(g: GetResult): Option<Pod>
  {
    match g
    case Fetched(p) => Some(p)
    case FetchFailed(p) => p
  }

  /** An event on which the loop returns: cancellation, the timer, or a fetched ready pod. */
  predicate EndsWait(e: WaitEvent)
  {
    e.Cancel? || e.Timeout? || (e.Tick? && e.result.Fetched? && IsPodReady(Some(e.result.pod)))
  }

  /** Index of the first event that ends the wait, or |es| when none does. */
  function FirstEnd(es: seq<WaitEvent>): (k: nat)
    ensures k <= |es|
    ensures forall i :: 0 <= i < k ==> !EndsWait(es[i])
    ensures k < |es| ==> EndsWait(es[k])
  {
    if |es| == 0 || EndsWait(es[0]) then 0
    else
      var k := FirstEnd(es[1..]);
      assert forall i :: 1 <= i <= k ==> es[i] == es[1..][i - 1];
      1 + k
  }

  /** Number of ticks whose Get succeeded. */
  function Fetches(es: seq<WaitEvent>): nat
  {
    if |es| == 0 then 0
    else (if es[0].Tick? && es[0].result.Fetched? then 1 else 0) + Fetches(es[1..])
  }

  /** The pod value of the last tick in `es`, or `init` when `es` has no tick. */
  function LastObserved(es: seq<WaitEvent>, init: Option<Pod>): Option<Pod>
  {
    if |es| == 0 then init
    else if es[|es| - 1].Tick? then Observed(es[|es| - 1].result)
    else LastObserved(es[..|es| - 1], init)
  }

  function Dots(n: nat): seq<Message>
  {
    seq(n, _ => ProgressDot)
  }

  function Polls(namespace: string, podName: string, n: nat): seq<Action>
  {
    seq(n, _ => GetCall(PodKind, namespace, podName))
  }

  /** The messages that close each outcome of the wait. */
  function Closing(o: WaitOutcome, last: Option<Pod>): seq<Message>
  {
    match o
    case Ready => [InfoMsg(ReadyText)]
    case TimedOut => [InfoMsg(""), ErrorMsg(GetPodErrorMessage(last))]
    case Canceled => []
    case Unfinished => []
  }

  /** How the event that ends the wait ends it. */
  function OutcomeOf(es: seq<WaitEvent>): WaitOutcome
  {
    var k := FirstEnd(es);
    if k == |es| then Unfinished
    else if es[k].Cancel? then Canceled
    else if es[k].Timeout? then TimedOut
    else Ready
  }

  /**
    What the loop sends and calls when `pre` are the events it handled before the one that
    ended it with outcome `o` (`Unfinished`: none did), entered with `pod` as the last Get
    result: one Get per tick and one `.` per successful Get, then the ending event's closing
    messages, after the `.` of the ready poll.
  */
  function Summary(namespace: string, podName: string, pre: seq<WaitEvent>, o: WaitOutcome, pod: Option<Pod>): WaitRun
  {
    var extra := if o == Ready then 1 else 0;
    WaitRun(
      Dots(Fetches(pre) + extra) + Closing(o, LastObserved(pre, pod)),
      Polls(namespace, podName, |pre| + extra),
      o,
      if o == TimedOut then Some(TimeoutText(podName)) else None)
  }

  /** The reference behaviour of the poll loop: the summary of the events before the first ending one. */
  function Reference(namespace: string, podName: string, es: seq<WaitEvent>, pod: Option<Pod>): WaitRun
  {
    Summary(namespace, podName, es[..FirstEnd(es)], OutcomeOf(es), pod)
  }

  /** The `for { select ... }` loop of waitForPodReady; it behaves as the reference says. */
  function PollLoop(namespace: string, podName: string, es: seq<WaitEvent>, pod: Option<Pod>): (r: WaitRun)
    ensures r == Reference(namespace, podName, es, pod)
    decreases |es|
  {
    if |es| == 0 then WaitRun([], [], Unfinished, None)
    else
      match es[0]
      case Cancel => WaitRun([], [], Canceled, None)
      case Timeout =>
        WaitRun([InfoMsg(""), ErrorMsg(GetPodErrorMessage(pod))], [], TimedOut, Some(TimeoutText(podName)))
      case Tick(g) =>
        var p := Observed(g);
        var get := GetCall(PodKind, namespace, podName);
        if g.FetchFailed? then
          var rest := PollLoop(namespace, podName, es[1..], p);
          StepFacts(namespace, podName, es, pod);
          rest.(actions := [get] + rest.actions)
        else if IsPodReady(p) then
          assert es[..0] == [];
          WaitRun([ProgressDot, InfoMsg(ReadyText)], [get], Ready, None)
        else
          var rest := PollLoop(namespace, podName, es[1..], p);
          StepFacts(namespace, podName, es, pod);
          rest.(messages := [ProgressDot] + rest.messages, actions := [get] + rest.actions)
  }

  /** How the reference moves when the loop consumes a tick that does not end the wait. */
  lemma StepFacts(namespace: string, podName: string, es: seq<WaitEvent>, pod: Option<Pod>)
    requires |es| > 0 && es[0].Tick? && !EndsWait(es[0])
    ensures var rest := Reference(namespace, podName, es[1..], Observed(es[0].result));
            var get := GetCall(PodKind, namespace, podName);
            Reference(namespace, podName, es, pod)
            == rest.(messages := (if es[0].result.Fetched? then [ProgressDot] else []) + rest.messages,
                     actions := [get] + rest.actions)
  {
    TickPrefix(es);
    SummaryCons(namespace, podName, es[0], es[1..][..FirstEnd(es[1..])], OutcomeOf(es), pod);
  }

  /** A leading tick that does not end the wait is handled before the events of the rest. */
  lemma TickPrefix(es: seq<WaitEvent>)
    requires |es| > 0 && !EndsWait(es[0])
    ensures FirstEnd(es) == 1 + FirstEnd(es[1..])
    ensures OutcomeOf(es) == OutcomeOf(es[1..])
    ensures es[..FirstEnd(es)] == [es[0]] + es[1..][..FirstEnd(es[1..])]
  {
    var rest := es[1..];
    var k := FirstEnd(rest);
    assert FirstEnd(es) == 1 + k;
    if k < |rest| {
      assert es[1 + k] == rest[k];
    }
    ConsPrefix(es[0], rest, k);
    assert es == [es[0]] + rest;
  }

  lemma ConsPrefix<T>(x: T, s: seq<T>, k: nat)
    requires k <= |s|
    ensures ([x] + s)[..1 + k] == [x] + s[..k]
  {
  }

  lemma DotsCons(n: nat)
    ensures Dots(1 + n) == [ProgressDot] + Dots(n)
  {
  }

  lemma PollsCons(namespace: string, podName: string, n: nat)
    ensures Polls(namespace, podName, 1 + n) == [GetCall(PodKind, namespace, podName)] + Polls(namespace, podName, n)
  {
  }

  /** The summary of a tick followed by `pre`, in terms of the summary of `pre`. */
  lemma SummaryCons(namespace: string, podName: string, e: WaitEvent, pre: seq<WaitEvent>, o: WaitOutcome, pod: Option<Pod>)
    requires e.Tick?
    ensures var rest := Summary(namespace, podName, pre, o, Observed(e.result));
            Summary(namespace, podName, [e] + pre, o, pod)
            == rest.(messages := (if e.result.Fetched? then [ProgressDot] else []) + rest.messages,
                     actions := [GetCall(PodKind, namespace, podName)] + rest.actions)
  {
    var extra := if o == Ready then 1 else 0;
    var s := [e] + pre;
    assert s[1..] == pre;
    LastObservedAfterTick(e, pre, pod);
    var closing := Closing(o, LastObserved(pre, Observed(e.result)));
    if e.result.Fetched? {
      assert Fetches(s) == 1 + Fetches(pre);
      DotsCons(Fetches(pre) + extra);
      assert Dots(Fetches(s) + extra) + closing == [ProgressDot] + (Dots(Fetches(pre) + extra) + closing);
    } else {
      assert Fetches(s) == Fetches(pre);
      assert Dots(Fetches(s) + extra) + closing == [] + (Dots(Fetches(pre) + extra) + closing);
    }
    PollsCons(namespace, podName, |pre| + extra);
    assert |s| + extra == 1 + (|pre| + extra);
  }

  /** A tick at the front only changes the starting value of the last observation. */
  lemma {:induction false} LastObservedAfterTick(e: WaitEvent, rest: seq<WaitEvent>, init: Option<Pod>)
    requires e.Tick?
    ensures LastObserved([e] + rest, init) == LastObserved(rest, Observed(e.result))
    decreases |rest|
  {
    var s := [e] + rest;
    if |rest| > 0 {
      assert s[..|s| - 1] == [e] + rest[..|rest| - 1];
      if !rest[|rest| - 1].Tick? {
        LastObservedAfterTick(e, rest[..|rest| - 1], init);
      }
    }
  }

  /** waitForPodReady: the `waiting` notice, then the poll loop starting from a nil pod. */
  function WaitForPodReady(namespace: string, podName: string, es: seq<WaitEvent>): (r: WaitRun)
    ensures var ref := Reference(namespace, podName, es, None);
            r == ref.(messages := [InfoMsg(WaitingText(podName))] + ref.messages)
  {
    var loop := PollLoop(namespace, podName, es, None);
    loop.(messages := [InfoMsg(WaitingText(podName))] + loop.messages)
  }

  /** The wait opens with the waiting notice, ends as its first ending event says and only polls. */
  lemma WaitShape(namespace: string, podName: string, es: seq<WaitEvent>)
    ensures var r := WaitForPodReady(namespace, podName, es);
            && |r.messages| >= 1 && r.messages[0] == InfoMsg(WaitingText(podName))
            && r.outcome == OutcomeOf(es)
            && r.actions == Polls(namespace, podName, FirstEnd(es) + (if r.outcome == Ready then 1 else 0))
            && r.err == (if r.outcome == TimedOut then Some(TimeoutText(podName)) else None)
  {
  }

  /** The first ending index is the only index with its defining properties. */
  lemma FirstEndUnique(es: seq<WaitEvent>, k: nat)
    requires k <= |es|
    requires forall i :: 0 <= i < k ==> !EndsWait(es[i])
    requires k < |es| ==> EndsWait(es[k])
    ensures FirstEnd(es) == k
  {
  }

  /** A list and a prefix of it that reaches the first ending event agree on it. */
  lemma FirstEndOfPrefix(es: seq<WaitEvent>, n: nat)
    requires FirstEnd(es) <= n <= |es|
    ensures FirstEnd(es[..n]) == FirstEnd(es)
    ensures es[..n][..FirstEnd(es)] == es[..FirstEnd(es)]
  {
    var k := FirstEnd(es);
    assert forall i :: 0 <= i < n ==> es[..n][i] == es[i];
    FirstEndUnique(es[..n], k);
  }

  /** Events after the one that ends the wait (at index `k`) are never looked at. */
  lemma EventsAfterEndIgnored(namespace: string, podName: string, es: seq<WaitEvent>, k: nat)
    requires k < |es| && EndsWait(es[k])
    requires forall i :: 0 <= i < k ==> !EndsWait(es[i])
    ensures WaitForPodReady(namespace, podName, es) == WaitForPodReady(namespace, podName, es[..k + 1])
  {
    FirstEndUnique(es, k);
    ReferenceThroughEnd(namespace, podName, es, k + 1, None);
  }

  lemma ReferenceThroughEnd(namespace: string, podName: string, es: seq<WaitEvent>, n: nat, pod: Option<Pod>)
    requires FirstEnd(es) < n <= |es|
    ensures Reference(namespace, podName, es[..n], pod) == Reference(namespace, podName, es, pod)
  {
    var k, p := FirstEnd(es), es[..n];
    FirstEndOfPrefix(es, n);
    OutcomeOfPrefix(es, n);
    assert FirstEnd(p) == k && p[..k] == es[..k] && OutcomeOf(p) == OutcomeOf(es);
  }

  lemma OutcomeOfPrefix(es: seq<WaitEvent>, n: nat)
    requires FirstEnd(es) < n <= |es|
    ensures OutcomeOf(es[..n]) == OutcomeOf(es)
  {
    FirstEndOfPrefix(es, n);
    assert es[..n][FirstEnd(es)] == es[FirstEnd(es)];
  }

  /**
    Cancellation sends nothing and returns no error: when the wait ends on a Cancel at index
    `k`, its messages are exactly those already sent once the events before it were handled.
  */
  lemma CancelSendsNothing(namespace: string, podName: string, es: seq<WaitEvent>, k: nat)
    requires k < |es| && es[k].Cancel?
    requires forall i :: 0 <= i < k ==> !EndsWait(es[i])
    ensures WaitForPodReady(namespace, podName, es).outcome == Canceled
    ensures WaitForPodReady(namespace, podName, es).err.None?
    ensures WaitForPodReady(namespace, podName, es[..k]).outcome == Unfinished
    ensures WaitForPodReady(namespace, podName, es).messages == WaitForPodReady(namespace, podName, es[..k]).messages
  {
    FirstEndUnique(es, k);
    FirstEndOfPrefix(es, k);
  }

  /** Number of messages of the given kind. */
  function CountKind(ms: seq<Message>, kind: MsgKind): nat
  {
    if |ms| == 0 then 0
    else (if ms[0].kind == kind then 1 else 0) + CountKind(ms[1..], kind)
  }

  lemma {:induction false} CountKindAppend(a: seq<Message>, b: seq<Message>, kind: MsgKind)
    ensures CountKind(a + b, kind) == CountKind(a, kind) + CountKind(b, kind)
    decreases |a|
  {
    if |a| > 0 {
      assert (a + b)[1..] == a[1..] + b;
      CountKindAppend(a[1..], b, kind);
    } else {
      assert a + b == b;
    }
  }

  lemma {:induction false} CountKindDots(n: nat, kind: MsgKind)
    ensures CountKind(Dots(n), kind) == (if kind == Stdout then n else 0)
    decreases n
  {
    if n > 0 {
      assert Dots(n)[1..] == Dots(n - 1);
      CountKindDots(n - 1, kind);
    }
  }

  /**
    Message accounting of the wait: one `stdout` per successful Get that was handled, one
    `error` exactly when it timed out and then as the last message, and the ready notice last
    when the pod became ready.
  */
  lemma WaitMessageCounts(namespace: string, podName: string, es: seq<WaitEvent>)
    ensures var r := WaitForPodReady(namespace, podName, es);
            var k := FirstEnd(es);
            && CountKind(r.messages, Stdout) == Fetches(es[..k]) + (if r.outcome == Ready then 1 else 0)
            && CountKind(r.messages, Error) == (if r.outcome == TimedOut then 1 else 0)
            && (r.outcome == TimedOut ==> r.messages[|r.messages| - 1].kind == Error)
            && (r.outcome == Ready ==> r.messages[|r.messages| - 1] == InfoMsg(ReadyText))
  {
    var r := WaitForPodReady(namespace, podName, es);
    var k := FirstEnd(es);
    var extra := if r.outcome == Ready then 1 else 0;
    var n := Fetches(es[..k]) + extra;
    var last := LastObserved(es[..k], None);
    var front := [InfoMsg(WaitingText(podName))] + Dots(n);
    var closing := Closing(r.outcome, last);
    assert r.messages == front + closing;
    ShapeCounts(WaitingText(podName), n, r.outcome, last, Stdout);
    ShapeCounts(WaitingText(podName), n, r.outcome, last, Error);
    ClosingLast(r.outcome, last);
    if |closing| > 0 {
      assert r.messages[|r.messages| - 1] == closing[|closing| - 1];
    }
  }

  /** The message that closes a timed-out or ready wait. */
  lemma ClosingLast(o: WaitOutcome, last: Option<Pod>)
    ensures var c := Closing(o, last);
            && (o == TimedOut ==> |c| > 0 && c[|c| - 1].kind == Error)
            && (o == Ready ==> |c| > 0 && c[|c| - 1] == InfoMsg(ReadyText))
  {
  }

  /** Counts over the notice, `n` dots and the closing messages of outcome `o`. */
  lemma ShapeCounts(notice: string, n: nat, o: WaitOutcome, last: Option<Pod>, kind: MsgKind)
    requires kind != Info
    ensures var ms := [InfoMsg(notice)] + Dots(n) + Closing(o, last);
            CountKind(ms, kind) == (if kind == Stdout then n else 0) + (if kind == Error && o == TimedOut then 1 else 0)
  {
    var head := [InfoMsg(notice)];
    var dots := Dots(n);
    var closing := Closing(o, last);
    CountKindAppend(head + dots, closing, kind);
    CountKindAppend(head, dots, kind);
    CountKindDots(n, kind);
    assert CountKind(head, kind) == 0 by {
      assert head[1..] == [];
    }
    ClosingCounts(o, last);
  }

  lemma SingleKindCount(m: Message, kind: MsgKind)
    ensures CountKind([m], kind) == (if m.kind == kind then 1 else 0)
  {
    assert [m][1..] == [];
  }

  lemma ClosingCounts(o: WaitOutcome, last: Option<Pod>)
    ensures CountKind(Closing(o, last), Stdout) == 0
    ensures CountKind(Closing(o, last), Error) == (if o == TimedOut then 1 else 0)
  {
    var c := Closing(o, last);
    if o == TimedOut {
      var e := ErrorMsg(GetPodErrorMessage(last));
      assert c == [InfoMsg("")] + [e];
      CountKindAppend([InfoMsg("")], [e], Stdout);
      CountKindAppend([InfoMsg("")], [e], Error);
      SingleKindCount(InfoMsg(""), Stdout);
      SingleKindCount(InfoMsg(""), Error);
      SingleKindCount(e, Stdout);
      SingleKindCount(e, Error);
    } else if o == Ready {
      SingleKindCount(InfoMsg(ReadyText), Stdout);
      SingleKindCount(InfoMsg(ReadyText), Error);
    }
  }
}

=== FILE: terminal_panel.dfy ===
/**
  The front end's kubectl terminal panel state (ui/src/contexts/terminal-context.tsx): whether
  the panel is open, which keeps the terminal session alive, and whether it is minimized,
  which hides it without ending the session.
*/
module TerminalPanel {
  datatype Panel = Panel(isOpen: bool, isMinimized: bool)

  /** The provider's initial state. */
  const Initial: Panel := Panel(false, false)

  datatype UserAction = OpenAction | CloseAction | MinimizeAction | ToggleAction

  /** The websocket session exists exactly while the panel is open. */
  predicate SessionAlive(p: Panel)
  {
    p.isOpen
  }

  /** The terminal is shown on screen. */
  predicate Shown(p: Panel)
  {
    p.isOpen && !p.isMinimized
  }

  /** openTerminal: open, or bring back from minimized. */
  function Open(p: Panel): (r: Panel)
    ensures Shown(r) && SessionAlive(r)
  {
    Panel(true, false)
  }

  /** closeTerminal: end the session; also clears the minimized flag. */
  function Close(p: Panel): (r: Panel)
    ensures !SessionAlive(r) && !r.isMinimized
  {
    Panel(false, false)
  }

  /** minimizeTerminal: hide the panel, keeping the session as it is (even when closed). */
  function Minimize(p: Panel): (r: Panel)
    ensures !Shown(r) && r.isMinimized
    ensures SessionAlive(r) <==> SessionAlive(p)
  {
    p.(isMinimized := true)
  }

  /** toggleTerminal: closed opens, minimized restores, shown minimizes. */
  function Toggle(p: Panel): (r: Panel)
    ensures SessionAlive(r)
    ensures Shown(r) <==> !Shown(p)
  {
    if !p.isOpen then Open(p)
    else if p.isMinimized then p.(isMinimized := false)
    else Minimize(p)
  }

  function Step(p: Panel, a: UserAction): Panel
  {
    match a
    case OpenAction => Open(p)
    case CloseAction => Close(p)
    case MinimizeAction => Minimize(p)
    case ToggleAction => Toggle(p)
  }

  /** The state after a sequence of user actions, applied first to last. */
  function Replay(p: Panel, acts: seq<UserAction>): Panel
    decreases |acts|
  {
    if |acts| == 0 then p else Replay(Step(p, acts[0]), acts[1..])
  }

  lemma CloseIdempotent(p: Panel)
    ensures Close(Close(p)) == Close(p)
  {
  }

  /** Toggling a session that is alive twice brings the panel back to where it was. */
  lemma ToggleTwiceWhenOpen(p: Panel)
    requires SessionAlive(p)
    ensures Toggle(Toggle(p)) == p
  {
  }

  /** Toggling a closed panel opens it, even one minimized while closed. */
  lemma ToggleOpensClosed(p: Panel)
    requires !SessionAlive(p)
    ensures Toggle(p) == Open(p)
  {
  }

  /**
    Which user actions end and start the session, independently of the replay: looking back
    from the last action, a close ends it, an open or a toggle leaves it alive, and a minimize
    leaves it as it was.
  */
  function AliveAfter(p: Panel, acts: seq<UserAction>): bool
    decreases |acts|
  {
    if |acts| == 0 then SessionAlive(p)
    else
      match acts[|acts| - 1]
      case CloseAction => false
      case MinimizeAction => AliveAfter(p, acts[..|acts| - 1])
      case _ => true
  }

  lemma {:induction false} ReplayAppend(p: Panel, acts: seq<UserAction>, a: UserAction)
    ensures Replay(p, acts + [a]) == Step(Replay(p, acts), a)
    decreases |acts|
  {
    if |acts| == 0 {
      assert acts + [a] == [a];
      assert [a][1..] == [];
    } else {
      assert (acts + [a])[1..] == acts[1..] + [a];
      ReplayAppend(Step(p, acts[0]), acts[1..], a);
    }
  }

  /** The session is alive after any sequence of actions exactly when the look-back rule says so. */
  lemma {:induction false} SessionAliveAfterReplay(p: Panel, acts: seq<UserAction>)
    ensures SessionAlive(Replay(p, acts)) <==> AliveAfter(p, acts)
    decreases |acts|
  {
    if |acts| > 0 {
      var init := acts[..|acts| - 1];
      var a := acts[|acts| - 1];
      assert acts == init + [a];
      ReplayAppend(p, init, a);
      SessionAliveAfterReplay(p, init);
    }
  }

  /** The actions that bring the session up: an open, or a toggle. */
  predicate Revives(a: UserAction)
  {
    a == OpenAction || a == ToggleAction
  }

  /**
    From the provider's initial state, the session is alive exactly when some open or toggle
    happened and no close came after it.
  */
  lemma {:induction false} AliveFromInitial(acts: seq<UserAction>)
    ensures SessionAlive(Replay(Initial, acts))
            <==> exists i :: 0 <= i < |acts| && Revives(acts[i]) && forall j :: i < j < |acts| ==> acts[j] != CloseAction
    decreases |acts|
  {
    SessionAliveAfterReplay(Initial, acts);
    AliveAfterInitial(acts);
  }

  lemma {:induction false} AliveAfterInitial(acts: seq<UserAction>)
    ensures AliveAfter(Initial, acts)
            <==> exists i :: 0 <= i < |acts| && Revives(acts[i]) && forall j :: i < j < |acts| ==> acts[j] != CloseAction
    decreases |acts|
  {
    if |acts| > 0 {
      var last := |acts| - 1;
      var init := acts[..last];
      if acts[last] == CloseAction {
        forall i | 0 <= i < |acts| && Revives(acts[i])
          ensures exists j :: i < j < |acts| && acts[j] == CloseAction
        {
          assert i < last;
        }
      } else if acts[last] == MinimizeAction {
        AliveAfterInitial(init);
        assert forall i :: 0 <= i < last ==> acts[i] == init[i];
      } else {
        assert Revives(acts[last]);
      }
    }
  }
}
